=== FILE: README.md ===
# FacturaOCR access control and invoice aggregation, modelled in Dafny

FacturaOCR is a small Next.js application for recording expense invoices,
either typed in by hand or extracted from a photo, and for summarising them
by period and category. Access is role based: users hold the roles `admin`,
`Caja` and `Registrador`, and a request gate sends each request its path
matcher selects through, to `/login`, to `/no-role` or to `/dashboard`.

This project models the two decision engines at its core as pure Dafny
functions over immutable data and proves what they promise:

- **Access control.** The request gate of `middleware.ts` (`Middleware`),
  the role table helpers of `lib/supabase/roles.ts` over an in-memory store
  of `roles` and `user_roles` (`RoleStore`), the server guards of
  `lib/supabase/server-auth.ts` (`ServerAuth`), the `useUserRoles` hook
  (`UserRolesHook`), the `RoleGuard` and `UserRolesDisplay` components
  (`RoleGuard`), and card visibility on the dashboard page (`DashboardPage`).
  The role record and the shared predicates (`hasRole`, `hasAnyRole`, the
  `map(...).filter(Boolean)` of joined roles) live in `RoleModel`.
- **Invoice aggregation.** The row mapping, save path and time-window
  filter of `lib/invoice-store.ts` (`InvoiceStore`), `calculateSummary`
  (`InvoiceSummary`), the category breakdown of the invoice dashboard
  (`InvoiceDashboard`), the manual form (`InvoiceForm`, with JavaScript's
  `trim` in `Text`) and the review step of an extracted invoice
  (`InvoiceUpload`).

Modelling choices:

- Amounts are whole cents (`int`). Invoice dates stay the strings the app
  stores. The filter gets a `parse: string -> Option<int>` that turns a date
  string into a millisecond instant, and None stands for an invalid date.
  An invalid date compares as NaN, so it is never in the day, week or month
  window (`all` returns every invoice, invalid dates included).
- The clock is an input: `Clock(now, todayMidnight, monthAgo)`. The week
  start is `now - 7 days`. `WellFormedClock` states that today's midnight
  is not after now and lies within the last week, and that a month reaches
  back further than a week; it does not assume a day lasts exactly 24 hours.
- The backend is an input too. Where a query answers with an error object,
  answers with null data, or throws, the model takes that answer as a
  parameter. `RoleQuery`, `Backend` and `SaveAttempt` each have a case for
  a throw. `RoleLookup` has none, because middleware.ts does not catch one.
- `Number()` on the form's text fields is the parameter `number`. It gives
  cents, or None where JavaScript gives NaN.
- Role names are plain strings. The source imports `Role` and `RoleName`
  types that `lib/types.ts` does not define. `RoleGuard` names the set
  `'admin' | 'Caja' | 'Registrador'`, and unknown names are tolerated
  everywhere.

Behaviours of the code that the proofs make visible:

- The insufficient-role fallback `/dashboard` is itself governed by
  `admin`/`Registrador`. A user holding only `Caja` who asks for
  `/dashboard` is redirected to `/dashboard` again
  (`Middleware.CajaOnlyDashboardRedirectsToItself`). The dashboard page
  shows that user a POS card, but the gate never lets them reach the page
  (`DashboardPage.CajaOnlyNeverSeesDashboard`).
- The gate counts joined role names that are undefined. A user whose role
  joins all yield null is treated as holding roles: they are sent to
  `/dashboard`, never to `/no-role`
  (`Middleware.NullJoinCountsAsHoldingRoles`). A failed lookup counts as
  no roles (`Middleware.FailedLookupMeansNoRole`).
- The role-table helpers report a failing role lookup as "Rol no
  encontrado" (`RoleStore.FailedLookupReadsAsNotFound`).
- `saveInvoice` signals a database error by returning null. The manual form
  ignores the result, so a failed insert is shown as a success and the form
  is cleared (`InvoiceForm.FailedInsertShownAsSuccess`). The upload review
  does check for null.
- The path matcher skips every path that merely starts with `public`
  (no slash follows it in the pattern), and its `.` in `favicon.ico`
  matches any character. `/publicidad` and `/favicon-ico` are therefore
  served without sign-in (`Middleware.UnmatchedPathsServedSignedOut`).
- The gate governs `/` (commented as the home dashboard) with all three
  roles, but `/dashboard` with only `admin` and `Registrador`. The model
  keeps both entries as written.

## Model

| member | source | states |
|---|---|---|
| `RoleModel.PresentRoles` | lib/supabase/roles.ts:23 | the kept roles are exactly the non-null joins, never more than the rows |
| `RoleModel.PresentRolesAppend` | hooks/useUserRoles.ts:46 | dropping null joins keeps the order of the rows (distributes over concatenation) |
| `RoleModel.PresentRolesAllJoined` | lib/supabase/server-auth.ts:82 | when every join succeeded, the roles are the joined roles, position by position |
| `RoleModel.HasRole` | hooks/useUserRoles.ts:61-63 | holds iff some role in the list has exactly that name |
| `RoleModel.HasAnyRole` | hooks/useUserRoles.ts:65-67 | holds iff some listed name is held; false for an empty list |
| `Middleware.UserRoleNames` | middleware.ts:80-85 | a failed lookup (null data) gives no names; otherwise one (possibly undefined) name per row |
| `Middleware.HasRequiredRole` | middleware.ts:88-90 | holds iff some required role occurs among the names; an undefined name matches nothing |
| `Middleware.Gate` | middleware.ts:16-108 | redirect to `/login` exactly for non-public paths without a user; `/no-role` only on governed paths with no names; `/dashboard` only on governed paths with some names |
| `Middleware.Serve` | middleware.ts:16-121 | a path the matcher skips (one whose part after `/` starts with `_next/static`, `_next/image`, `favicon` + any character + `ico`, or `public`) is always served; otherwise served iff the declarative rule allows it, and `/login` exactly for matched non-public paths without a user |
| `Middleware.GovernedPathsMatched` | middleware.ts:110-121 | every governed path and both public pages run the middleware |
| `Middleware.UnmatchedPathsServedSignedOut` | middleware.ts:110-121 | `/_next/static/...`, `/publicidad` and `/favicon-ico` are served to a signed-out user, while `/admin` is redirected to `/login` |
| `Middleware.GateAllowsExactlyMayReach` | middleware.ts:19-107 | the gate allows a request iff the path is public, or a user is signed in and the path is ungoverned or one of its roles is held |
| `Middleware.RouteTableWellFormed` | middleware.ts:5-14 | every governed path lists at least one role, and no governed path is public |
| `Middleware.PublicPathsAlwaysAllowed` | middleware.ts:19-22 | `/login` and `/register` are allowed whatever the identity and the lookup |
| `Middleware.SignedOutGoesToLogin` | middleware.ts:69-74 | any matched non-public path without a user redirects to `/login` |
| `Middleware.UngovernedIgnoresRoles` | middleware.ts:76-78 | a signed-in request for a path with no exact table key is allowed and the lookup cannot change that |
| `Middleware.GovernedDecision` | middleware.ts:87-104 | on a governed path: allowed iff its roles meet the names; otherwise no names means `/no-role` and some names mean `/dashboard` |
| `Middleware.FailedLookupMeansNoRole` | middleware.ts:80-98 | a failed role lookup on a governed path redirects to `/no-role` |
| `Middleware.NoRolePageReachable` | middleware.ts:8-14 | `/no-role` is allowed for every signed-in user |
| `Middleware.CajaOnlyDashboardRedirectsToItself` | middleware.ts:92-103 | a `Caja`-only user asking for `/dashboard` is redirected to `/dashboard` |
| `Middleware.NullJoinCountsAsHoldingRoles` | middleware.ts:85-103 | a user whose joins are all null is sent to `/dashboard`, not `/no-role` |
| `Middleware.AdminPanelExamples` | middleware.ts:16-108 | `/admin` with no roles gives `/no-role`, with `Caja` gives `/dashboard`, with `admin` is allowed; signed-out `/register-invoice` gives `/login`; `/login` is allowed |
| `RoleStore.GetUserRoles` | lib/supabase/roles.ts:11-28 | exactly the roles whose row exists and whose pair with the user is stored; empty on a query error or a throw |
| `RoleStore.OneRolePerPair` | lib/supabase/roles.ts:13-23 | with role ids unique across names (the table's key), no two returned roles share an id |
| `RoleStore.WritesKeepStoreValid` | lib/supabase/roles.ts:76-162 | assigning and removing never touch `roles`, so unique ids stay unique |
| `RoleStore.UserHasRole` | lib/supabase/roles.ts:33-44 | holds iff some role returned for the user has that name |
| `RoleStore.AssignRoleToUser` | lib/supabase/roles.ts:76-122 | succeeds iff the backend is healthy, the role exists and the pair is new; then exactly that pair is added; on every failure the store is unchanged; a failed insert replies with its error message, and a throw with the thrown message or "Error desconocido" |
| `RoleStore.RemoveRoleFromUser` | lib/supabase/roles.ts:127-162 | succeeds iff the backend is healthy and the role exists; then exactly that pair is removed; on every failure the store is unchanged; a failed delete replies with its error message, and a throw with the thrown message or "Error desconocido" |
| `RoleStore.AssignUnknownRole` | lib/supabase/roles.ts:82-90 | an unknown role name fails both helpers with "Rol no encontrado" and the store unchanged |
| `RoleStore.FailedLookupReadsAsNotFound` | lib/supabase/roles.ts:88-90 | an erroring role lookup is reported as "Rol no encontrado" |
| `RoleStore.AssignHeldRole` | lib/supabase/roles.ts:92-102 | assigning a held pair fails with "El usuario ya tiene este rol" and the store unchanged |
| `RoleStore.AssignGrantsRole` | lib/supabase/roles.ts:104-114 | after a successful assignment the user holds the role |
| `RoleStore.AssignTwice` | lib/supabase/roles.ts:92-114 | assigning twice gives success then "already assigned", and the user has exactly one role of that name (by construction: roles are keyed by name) |
| `RoleStore.RemoveTouchesOnlyThePair` | lib/supabase/roles.ts:143-148 | removal keeps every other user's and every other role's pair |
| `RoleStore.RemoveIsIdempotent` | lib/supabase/roles.ts:143-154 | removing a role the user never had succeeds and changes nothing |
| `RoleStore.RemoveRevokesRole` | lib/supabase/roles.ts:143-154 | after removal the user no longer holds the role |
| `ServerAuth.GetUserRoles` | lib/supabase/server-auth.ts:72-82 | `[]` on a query error; a throw propagates; otherwise exactly the non-null joined roles |
| `ServerAuth.UserHasRole` | lib/supabase/server-auth.ts:85-88 | holds iff some returned role has the name; fails only when the query throws |
| `ServerAuth.UserHasAnyRole` | lib/supabase/server-auth.ts:90-93 | holds iff some listed name is held; never for an empty list |
| `ServerAuth.RequireAdmin` | lib/supabase/server-auth.ts:95-109 | no user fails "Usuario no autenticado" before any role check; not admin fails with the permission error; admin returns the user |
| `ServerAuth.RequireRole` | lib/supabase/server-auth.ts:111-125 | returns the user iff signed in and some listed role is held; unauthenticated first, then the permission error |
| `ServerAuth.RequireAdminIsRequireRoleAdmin` | lib/supabase/server-auth.ts:95-125 | `requireAdmin()` equals `requireRole('admin')` on every input |
| `ServerAuth.RequireNoRolesRejectsEveryone` | lib/supabase/server-auth.ts:118-122 | `requireRole()` with no names never returns a user |
| `ServerAuth.QueryErrorDeniesPermission` | lib/supabase/server-auth.ts:77-80 | a failing role query makes every signed-in caller fail with the permission error |
| `UserRolesHook.LoadUserRoles` | hooks/useUserRoles.ts:23-56 | loading always ends; no user, a query error or a throw leave no roles; otherwise exactly the non-null joined roles |
| `UserRolesHook.HookHasRole` | hooks/useUserRoles.ts:61-63 | holds iff some role in the state has the name |
| `UserRolesHook.HookHasAnyRole` | hooks/useUserRoles.ts:65-67 | holds iff `hasRole` holds for some listed name; false for an empty list |
| `UserRolesHook.IsAdmin` | hooks/useUserRoles.ts:69 | holds iff some role in the state is named `admin` |
| `UserRolesHook.LoadKeepsJoinedOrder` | hooks/useUserRoles.ts:46-48 | with every join present the roles are the joined roles in row order |
| `RoleGuard.Guard` | components/RoleGuard.tsx:34-46 | placeholder iff loading; otherwise children iff any required role is held; fallback iff not held and one is given; nothing otherwise |
| `RoleGuard.EmptyRequirementNeverShowsChildren` | components/RoleGuard.tsx:41-45 | with no required roles the children never render |
| `RoleGuard.LoadingIgnoresRoles` | components/RoleGuard.tsx:37-39 | while loading, the output does not depend on the roles, and equals what the hook's initial state renders |
| `RoleGuard.DisplayRoles` | components/RoleGuard.tsx:6-26 | loading badge iff loading; "Sin rol" iff loaded with no roles; otherwise one badge per role with its name, in order |
| `DashboardPage.CardVisible` | app/dashboard/page.tsx:70-162 | admin card iff admin; invoices and analysis cards iff admin or Registrador; POS card iff admin, Caja or Registrador |
| `DashboardPage.VisibleCards` | app/dashboard/page.tsx:70-162 | the shown cards are exactly the visible ones |
| `DashboardPage.VisibleCardsAppend` | app/dashboard/page.tsx:70-162 | the filter distributes over concatenation, so the shown cards keep page order |
| `DashboardPage.VisibleCardsCons` | app/dashboard/page.tsx:70-162 | a card in front shows first exactly when it is visible |
| `DashboardPage.VisibleAllCards` | app/dashboard/page.tsx:70-162 | the page shows admin, invoices, POS and analysis cards in that order, each iff visible |
| `DashboardPage.CajaCardOrder` | app/dashboard/page.tsx:118 | a `Caja`-only user sees the POS card alone |
| `DashboardPage.AdminCardOrder` | app/dashboard/page.tsx:70-162 | an admin sees all four cards, in page order |
| `DashboardPage.Render` | app/dashboard/page.tsx:12-180 | only the loading message while unmounted or loading; otherwise "Sin rol" badge and warning iff no roles, one badge per role, and exactly the visible cards |
| `DashboardPage.GateNames` | middleware.ts:85 | the names the gate sees for fully joined roles: the same names, none undefined |
| `DashboardPage.VisibleLinksPassTheGate` | app/dashboard/page.tsx:84-153 | every link on a shown card (`/admin`, `/register-invoice`, `/`) is allowed by the gate for the same user |
| `DashboardPage.CajaOnlyNeverSeesDashboard` | app/dashboard/page.tsx:118 | a `Caja`-only user would see the POS card, but the gate never allows them `/dashboard` |
| `InvoiceStore.TruthyText` | lib/invoice-store.ts:83 | `x \|\| undefined`: present iff given and non-empty, and then unchanged |
| `InvoiceStore.MapDbToInvoice` | lib/invoice-store.ts:62-86 | `subtotal` becomes `amount`; a null description becomes ""; a null or empty `image_url` becomes undefined; the other fields are copied |
| `InvoiceStore.InsertedRow` | lib/invoice-store.ts:23-34 | the insert writes `amount` as `subtotal`, the description as given, and the image URL as given |
| `InvoiceStore.SaveInvoice` | lib/invoice-store.ts:20-44 | null iff the insert fails |
| `InvoiceStore.SaveRoundTrip` | lib/invoice-store.ts:20-86 | saving and reading back returns every field the caller gave, with the database's id and timestamp; an empty image URL comes back undefined |
| `InvoiceStore.StartDate` | lib/invoice-store.ts:94-107 | the start of each window is never after now |
| `InvoiceStore.KeepFrom` | lib/invoice-store.ts:109 | keeps exactly the invoices whose parsed date is on or after the start, never more than given |
| `InvoiceStore.FilterByTimeRange` | lib/invoice-store.ts:88-110 | `all` returns the input itself; other windows keep exactly the invoices dated on or after the start, with no upper bound |
| `InvoiceStore.KeepFromAppend` | lib/invoice-store.ts:109 | the filter keeps the input order (distributes over concatenation) |
| `InvoiceStore.KeepFromNests` | lib/invoice-store.ts:109 | filtering from a later start equals filtering the earlier result again |
| `InvoiceStore.WindowsNest` | lib/invoice-store.ts:92-109 | with a well-formed clock, day is a subsequence of week, week of month, month of all |
| `InvoiceStore.DayWindowBoundary` | lib/invoice-store.ts:98-109 | an invoice is in the day window iff its instant is at or after today's midnight |
| `InvoiceStore.WeekWindowBoundary` | lib/invoice-store.ts:98-109 | an invoice with a valid date is in the week window iff its instant is at or after now minus seven days |
| `InvoiceStore.MonthWindowBoundary` | lib/invoice-store.ts:98-109 | an invoice with a valid date is in the month window iff its instant is at or after now moved back a month |
| `InvoiceSummary.CategoryTotals` | lib/invoice-store.ts:113-124 | the keys are exactly the categories that occur |
| `InvoiceSummary.AbsentCategoryShare` | lib/invoice-store.ts:123 | a category that does not occur contributes nothing |
| `InvoiceSummary.CategoryTotalsStep` | lib/invoice-store.ts:123 | one more invoice changes only its own category's entry, adding its total to the previous value or to 0 |
| `InvoiceSummary.CalculateSummary` | lib/invoice-store.ts:112-133 | count is the number of invoices; the three totals are the sums of amount, tax and total; the category map is the per-category sum of totals |
| `InvoiceSummary.SharesPartitionGrandTotal` | lib/invoice-store.ts:119-124 | the category shares over any distinct list covering the categories add up to the grand total |
| `InvoiceSummary.EmptySummary` | lib/invoice-store.ts:113-132 | no invoices give zero totals and an empty category map |
| `InvoiceSummary.WorkedExample` | lib/invoice-store.ts:112-133 | 100+18=118 on food and 50 on "Otros" give 150, 18, 168 and `{Alimentación: 118, Otros: 50}` |
| `InvoiceDashboard.Insert` | components/invoice-dashboard.tsx:39-41 | inserting into a non-increasing list keeps it non-increasing and adds exactly the one entry |
| `InvoiceDashboard.SortByAmountDesc` | components/invoice-dashboard.tsx:39-41 | the result is in non-increasing order of amount and is a permutation of the entries |
| `InvoiceDashboard.InsertStable` | components/invoice-dashboard.tsx:39-41 | the inserted entry lands ahead of every entry with the same amount, whose order is kept |
| `InvoiceDashboard.SortStable` | components/invoice-dashboard.tsx:39-41 | the sort is stable: for every amount, the entries with that amount keep their input order |
| `InvoiceDashboard.SortKeepsSum` | components/invoice-dashboard.tsx:39-41 | sorting leaves the total of the amounts unchanged |
| `InvoiceDashboard.DisplayedAmountsAddUp` | components/invoice-dashboard.tsx:110-114 | the displayed category amounts add up to the grand total |
| `InvoiceDashboard.Percentage` | components/invoice-dashboard.tsx:111-114 | 0 unless the grand total is positive; otherwise the value times the grand total is 100 times the amount |
| `InvoiceDashboard.PercentageBounded` | components/invoice-dashboard.tsx:111-114 | an amount between 0 and the grand total gives a percentage between 0 and 100 |
| `InvoiceDashboard.ColorOf` | components/invoice-dashboard.tsx:127 | a known category gets its colour, any other the fallback colour |
| `InvoiceDashboard.Breakdown` | components/invoice-dashboard.tsx:103-133 | no section iff there are no entries; otherwise row i shows the i-th sorted entry, in non-increasing order of amount, with its percentage and colour |
| `InvoiceDashboard.BreakdownShowsEveryEntry` | components/invoice-dashboard.tsx:110 | the displayed entries are a permutation of the entries: none dropped, none repeated |
| `InvoiceDashboard.SectionShownIffInvoices` | components/invoice-dashboard.tsx:103 | the section shows iff some invoice is in the summarised list |
| `Text.SkipSpace` | components/invoice-form.tsx:89 | the first position from `lo` on that is not white space; everything before it is white space |
| `Text.SkipSpaceBack` | components/invoice-form.tsx:89 | the end of a range once its trailing white space is dropped; everything after it is white space |
| `Text.Trim` | components/invoice-form.tsx:89 | a slice of the input with only white space cut from both ends; neither end of a non-empty result is white space |
| `Text.TrimUnique` | components/invoice-form.tsx:89 | any slice with only white space outside it and none at its own ends equals the trimmed string, so the three properties pin `trim` down |
| `Text.TrimBlankIffAllSpace` | components/invoice-form.tsx:64 | a string trims to "" iff it is all white space |
| `InvoiceForm.EmptyForm` | components/invoice-form.tsx:101-108 | empty vendor, description, amount and tax; today's date; category "Otros" |
| `InvoiceForm.InitialState` | components/invoice-form.tsx:38-49 | the form starts empty, without error or success banner |
| `InvoiceForm.ValidateForm` | components/invoice-form.tsx:63-69 | null iff all checks pass; each check's message is returned exactly when the earlier checks pass and it fails, in the order vendor, amount present and numeric, amount positive, date |
| `InvoiceForm.TaxOf` | components/invoice-form.tsx:86 | a non-numeric tax counts as 0 |
| `InvoiceForm.EmptyTaxIsZero` | components/invoice-form.tsx:86-93 | with `Number("")` as 0, an empty tax counts as 0 and the total is the amount |
| `InvoiceForm.BuildInvoice` | components/invoice-form.tsx:85-96 | total is amount plus tax; amount is positive; vendor and description trimmed; date and category unchanged; no image |
| `InvoiceForm.HandleSubmit` | components/invoice-form.tsx:71-118 | saving is attempted iff validation passes; a validation error is shown with fields kept; a returning save resets the form with success; a throw keeps the fields and shows the thrown message, or "Error al guardar la factura" when there is none |
| `InvoiceForm.FailedInsertShownAsSuccess` | components/invoice-form.tsx:98-100 | a failed insert (null result) is still shown as a success |
| `InvoiceForm.BlankVendorRejected` | components/invoice-form.tsx:64 | an all-white-space vendor fails with the vendor message first |
| `InvoiceUpload.TextOr` | components/invoice-upload.tsx:107 | a missing or empty text falls back; any other passes through |
| `InvoiceUpload.NumberOr0` | components/invoice-upload.tsx:109 | a missing number is 0; any other passes through |
| `InvoiceUpload.Defaulted` | components/invoice-upload.tsx:106-115 | vendor defaults to "Desconocido", description to "", amounts to 0, date to today, category to "Otros", image to the non-empty preview |
| `InvoiceUpload.EmptyDraftDefaults` | components/invoice-upload.tsx:106-115 | an empty guess saves as an unknown vendor with zero amounts, today's date and "Otros" |
| `InvoiceUpload.TotalNotRecomputed` | components/invoice-upload.tsx:111 | the stored total is the draft's total, whatever amount and tax are |
| `InvoiceUpload.SavedDraftRoundTrips` | components/invoice-upload.tsx:106-117 | the saved invoice carries the defaulted fields with the database's id and timestamp |
| `InvoiceUpload.HandleSave` | components/invoice-upload.tsx:99-131 | no draft does nothing; a stored row clears draft, preview and error; a null result keeps them and sets the database error; a throw keeps them and sets the thrown message, or "Error al guardar" when there is none |
| `InvoiceUpload.HandleCancel` | components/invoice-upload.tsx:133-137 | clears draft, preview and error |
| `InvoiceUpload.UpdateField` | components/invoice-upload.tsx:139-141 | a missing draft stays missing; otherwise only the edited field changes, and preview and error are kept |

## Left out

- Supabase client construction, cookies, sessions and `auth.getUser`. Whether a user is signed in and what each query answers are inputs.
- `getAllUsersWithRoles` and `getAllRoles` in `lib/supabase/roles.ts`. They are plain listings over the network.
- `getInvoices` and `deleteInvoice` in `lib/invoice-store.ts`, which are a select and a delete. `generateId` is left out because it reads the clock and a random source.
- The extraction route `app/api/extract-invoice/route.ts`. It is an opaque model call, so the draft it returns is an input.
- The admin page `app/admin/page.tsx`, which is network I/O. Its assign and remove calls go through `RoleStore`'s helpers, and it shows their `error` text.
- The users listing route `app/api/users/route.ts`. It differs from `RoleStore`: it keeps null role joins in each user's list, and it ignores the error of its select.
- JavaScript `Date` semantics. Date strings go through a `parse` parameter. The gap between UTC parsing of `YYYY-MM-DD` and the local-midnight day start is not modelled, and neither is `setMonth` normalisation at month end or daylight-saving shifts of the week start.
- Floating point. Amounts are whole cents, and the percentage is an exact real, so rounding and `toFixed` are not modelled.
- Currency and date formatting (`Intl.NumberFormat`, `toLocaleDateString`).
- `Number()` and `parseFloat` parsing of text fields. This is the `number` parameter. The review form's `parseFloat(...) || 0` at the edit site is not modelled.
- The existence check of `assignRoleToUser` uses `.single()`. With duplicate rows already stored it answers null and the insert goes ahead. The store is a set, so duplicates cannot arise. An error from that check is not modelled either: it would also let the insert go ahead.
- `InvoiceSummary.CategoryTotals`: a map with ordinary string keys. The source's `byCategory` is a plain object, so a category named after an `Object.prototype` member misbehaves there. For `__proto__` the share becomes a string whose assignment is ignored, and the category vanishes. For `constructor` or `toString` the share becomes a concatenated string. `SharesPartitionGrandTotal` and `DisplayedAmountsAddUp` hold in the program only for categories that are not such names.
- `InvoiceDashboard.ColorOf`: the same holds for `categoryColors`, a plain object. `constructor` looks up a function there instead of falling back to the grey colour.
- The path matcher's `.*` does not match a line break. Decoded paths containing one are not modelled.
- The request gate's lookup is by exact key. JavaScript object-prototype keys cannot occur because every path starts with `/`.
- A `RoleGuard` fallback that is a falsy non-element (`""`, `0`) renders nothing in the source. The model only takes elements or no fallback.
- `handleChange` and `handleSelectChange` of the manual form, which just set one field and clear the error.
- The success banner's three-second timer, the `onSuccess`/`onInvoiceSaved` callbacks, file reading, the image drop handler and all other presentation pages and components.
- Async React state. Each hook and component is modelled by the state it settles in.
- `InvoiceDashboard.Breakdown`: takes the entry list of `byCategory` as a parameter. The order `Object.entries` gives (insertion order, with integer-like keys first) is not modelled.

=== FILE: base.dfy ===
/** Small failure-carrying datatypes shared by every module of the model. */
module Base {

  /** A value that may be absent: JavaScript's `null` / `undefined`. */
  datatype Option<+T> = None | Some(value: T)

  /**
   * The outcome of a call that either returns a value or throws an `Error`
   * with a message; usable with `:-`, which passes a throw on to the caller.
   */
  datatype Result<+T> = Ok(value: T) | Err(message: string) {

    predicate IsFailure() {
      Err?
    }

    function PropagateFailure<U>(): Result<U>
      requires Err?
    {
      Err(message)
    }

    function Extract(): T
      requires Ok?
    {
      value
    }
  }

  /** Dropping the last element of `a + b` drops the last element of `b`. */
  lemma InitOfAppend<T>(a: seq<T>, b: seq<T>)
    requires b != []
    ensures (a + b)[..|a + b| - 1] == a + b[..|b| - 1]
    ensures (a + b)[|a + b| - 1] == b[|b| - 1]
  {
  }
}

=== FILE: dashboard_page.dfy ===
/**
 * The role-dependent parts of app/dashboard/page.tsx: which cards show,
 * where their links lead, and the no-role warning.
 */
module DashboardPage {
  import opened Base
  import opened RoleModel
  import opened UserRolesHook
  import Middleware

  /** The action cards, in page order. */
  datatype Card = AdminCard | InvoicesCard | PosCard | AnalysisCard

  /** The link a card's button follows; the POS button is disabled. */
  function CardLink(c: Card): Option<string>
  {
    match c
    case AdminCard => Some("/admin")
    case InvoicesCard => Some("/register-invoice")
    case PosCard => None
    case AnalysisCard => Some("/")
  }

  /** Whether a card shows for the hook's state. */
  function CardVisible(st: HookState, c: Card): (shown: bool)
    ensures c == AdminCard ==> (shown <==> IsAdmin(st))
    ensures c == InvoicesCard || c == AnalysisCard ==>
      (shown <==> exists r :: r in st.roles && (r.name == Admin || r.name == Registrador))
    ensures c == PosCard ==>
      (shown <==> exists r :: r in st.roles && (r.name == Admin || r.name == Caja || r.name == Registrador))
  {
    match c
    case AdminCard => IsAdmin(st)
    case InvoicesCard => IsAdmin(st) || HookHasRole(st, Registrador)
    case PosCard => IsAdmin(st) || HookHasRole(st, Caja) || HookHasRole(st, Registrador)
    case AnalysisCard => IsAdmin(st) || HookHasRole(st, Registrador)
  }

  /** The page: only a loading message, or the profile badges, the visible cards and the warning. */
  datatype View =
    | LoadingProfile
    | Dashboard(noRoleBadge: bool, badges: seq<RoleName>, cards: seq<Card>, noRoleWarning: bool)

  const AllCards: seq<Card> := [AdminCard, InvoicesCard, PosCard, AnalysisCard]

  /** The cards that show, in page order. */
  function VisibleCards(st: HookState, cards: seq<Card>): (shown: seq<Card>)
    ensures forall c :: c in shown <==> c in cards && CardVisible(st, c)
    ensures |shown| <= |cards|
  {
    if cards == [] then []
    else (if CardVisible(st, cards[0]) then [cards[0]] else []) + VisibleCards(st, cards[1..])
  }

  /** Showing cards keeps the page's order: the filter distributes over concatenation. */
  lemma {:induction false} VisibleCardsAppend(st: HookState, a: seq<Card>, b: seq<Card>)
    ensures VisibleCards(st, a + b) == VisibleCards(st, a) + VisibleCards(st, b)
  {
    if a != [] {
      assert (a + b)[0] == a[0] && (a + b)[1..] == a[1..] + b;
      VisibleCardsAppend(st, a[1..], b);
    } else {
      assert a + b == b;
    }
  }

  /** The filter on a list with one more card in front. */
  lemma VisibleCardsCons(st: HookState, c: Card, cs: seq<Card>)
    ensures VisibleCards(st, [c] + cs) == (if CardVisible(st, c) then [c] else []) + VisibleCards(st, cs)
  {
    assert ([c] + cs)[0] == c && ([c] + cs)[1..] == cs;
  }

  /** The filter over the whole page, card by card. */
  lemma VisibleAllCards(st: HookState)
    ensures VisibleCards(st, AllCards) ==
      (if CardVisible(st, AdminCard) then [AdminCard] else [])
      + ((if CardVisible(st, InvoicesCard) then [InvoicesCard] else [])
      + ((if CardVisible(st, PosCard) then [PosCard] else [])
      + (if CardVisible(st, AnalysisCard) then [AnalysisCard] else [])))
  {
    var l3 := [AnalysisCard];
    var l2 := [PosCard] + l3;
    var l1 := [InvoicesCard] + l2;
    assert AllCards == [AdminCard] + l1;
    VisibleCardsCons(st, AdminCard, l1);
    VisibleCardsCons(st, InvoicesCard, l2);
    VisibleCardsCons(st, PosCard, l3);
    assert l3 == [AnalysisCard] + [];
    VisibleCardsCons(st, AnalysisCard, []);
  }

  /** A `Caja`-only user's page shows the POS card alone. */
  lemma CajaCardOrder(r: Role)
    requires r.name == Caja
    ensures VisibleCards(HookState([r], false), AllCards) == [PosCard]
  {
    var st := HookState([r], false);
    assert r in st.roles;
    VisibleAllCards(st);
  }

  /** An admin's page shows all four cards, in page order. */
  lemma AdminCardOrder(r: Role)
    requires r.name == Admin
    ensures VisibleCards(HookState([r], false), AllCards) == AllCards
  {
    var st := HookState([r], false);
    assert r in st.roles;
    VisibleAllCards(st);
  }

  /** `DashboardPage()` after the mount flag and the hook state are known. */
  function Render(mounted: bool, st: HookState): (v: View)
    ensures v == LoadingProfile <==> !mounted || st.isLoading
    ensures v.Dashboard? ==> (v.noRoleBadge <==> st.roles == []) && (v.noRoleWarning <==> st.roles == [])
    ensures v.Dashboard? ==> |v.badges| == |st.roles| && forall i :: 0 <= i < |st.roles| ==> v.badges[i] == st.roles[i].name
    ensures v.Dashboard? ==> forall c :: c in v.cards <==> CardVisible(st, c)
  {
    if !mounted || st.isLoading then LoadingProfile
    else
      var cards := VisibleCards(st, AllCards);
      assert AllCards[0] == AdminCard && AllCards[1] == InvoicesCard;
      assert AllCards[2] == PosCard && AllCards[3] == AnalysisCard;
      Dashboard(
        |st.roles| == 0,
        seq(|st.roles|, i requires 0 <= i < |st.roles| => st.roles[i].name),
        cards,
        |st.roles| == 0)
  }

  /** The role names the request gate sees for the same roles: every join present. */
  function GateNames(roles: seq<Role>): (names: seq<Option<RoleName>>)
    ensures |names| == |roles|
    ensures forall n :: Some(n) in names <==> exists r :: r in roles && r.name == n
  {
    if roles == [] then []
    else
      assert forall r :: r in roles <==> r == roles[0] || r in roles[1..];
      [Some(roles[0].name)] + GateNames(roles[1..])
  }

  /**
   * Every link on a card the page shows leads to a route the request gate
   * lets the same user through.
   */
  lemma {:induction false} VisibleLinksPassTheGate(st: HookState, c: Card)
    requires CardVisible(st, c) && CardLink(c).Some?
    ensures Middleware.Gate(CardLink(c).value, true, Some(GateNames(st.roles))) == Middleware.Allow
  {
    var names := GateNames(st.roles);
    var path := CardLink(c).value;
    Middleware.GateAllowsExactlyMayReach(path, true, Some(names));
    assert path in Middleware.RoleRoutes;
    var r :| r in st.roles && (if c == AdminCard then r.name == Admin else r.name == Admin || r.name == Registrador);
    assert Some(r.name) in names;
    assert r.name in Middleware.RoleRoutes[path];
  }

  /**
   * The POS card shows for a `Caja`-only user, yet the gate never lets that
   * user reach `/dashboard`, where the card lives.
   */
  lemma CajaOnlyNeverSeesDashboard(r: Role)
    requires r.name == Caja
    ensures CardVisible(HookState([r], false), PosCard)
    ensures Middleware.Gate(Middleware.DashboardPath, true, Some(GateNames([r]))) != Middleware.Allow
  {
  }
}

=== FILE: invoice_dashboard.dfy ===
/**
 * The computed parts of components/invoice-dashboard.tsx: the per-category
 * breakdown sorted by amount, each row's percentage of the grand total and
 * its colour. Currency formatting is not modelled.
 */
module InvoiceDashboard {
  import opened Base
  import opened InvoiceStore
  import opened InvoiceSummary

  /** One `[category, amount]` pair of `Object.entries(summary.byCategory)`. */
  datatype Entry = Entry(category: string, amount: int)

  /** `es` lists the map's entries, each category once. */
  predicate IsEntryList(es: seq<Entry>, m: map<string, int>)
  {
    && (forall i, j :: 0 <= i < j < |es| ==> es[i].category != es[j].category)
    && (forall i :: 0 <= i < |es| ==> es[i].category in m && es[i].amount == m[es[i].category])
    && (forall c :: c in m ==> exists i :: 0 <= i < |es| && es[i].category == c)
  }

  predicate NonIncreasing(es: seq<Entry>)
  {
    forall i, j :: 0 <= i < j < |es| ==> es[i].amount >= es[j].amount
  }

  /** Places `e` before the first entry it is not smaller than, so equal amounts keep their order. */
  function Insert(e: Entry, sorted: seq<Entry>): (r: seq<Entry>)
    requires NonIncreasing(sorted)
    ensures NonIncreasing(r)
    ensures multiset(r) == multiset(sorted) + multiset{e}
    ensures |r| == |sorted| + 1
  {
    if sorted == [] then [e]
    else if e.amount >= sorted[0].amount then [e] + sorted
    else
      var rest := Insert(e, sorted[1..]);
      assert sorted == [sorted[0]] + sorted[1..];
      var pool := sorted[1..] + [e];
      assert forall k :: 0 <= k < |pool| ==> pool[k].amount <= sorted[0].amount by {
        forall k | 0 <= k < |pool| ensures pool[k].amount <= sorted[0].amount {
          if k < |sorted| - 1 {
            assert pool[k] == sorted[k + 1];
          }
        }
      }
      BoundSurvivesPermutation(rest, pool, sorted[0].amount);
      ConsNonIncreasing(sorted[0], rest);
      [sorted[0]] + rest
  }

  /** An entry no smaller than any amount of a sorted list may go in front of it. */
  lemma ConsNonIncreasing(x: Entry, es: seq<Entry>)
    requires NonIncreasing(es)
    requires forall k :: 0 <= k < |es| ==> es[k].amount <= x.amount
    ensures NonIncreasing([x] + es)
  {
  }

  /** An upper bound on every amount of `pool` bounds every amount of a permutation of it. */
  lemma BoundSurvivesPermutation(es: seq<Entry>, pool: seq<Entry>, bound: int)
    requires multiset(es) == multiset(pool)
    requires forall k :: 0 <= k < |pool| ==> pool[k].amount <= bound
    ensures forall k :: 0 <= k < |es| ==> es[k].amount <= bound
  {
    forall k | 0 <= k < |es| ensures es[k].amount <= bound {
      assert es[k] in multiset(pool);
      var j :| 0 <= j < |pool| && pool[j] == es[k];
    }
  }

  /** `entries.sort(([, a], [, b]) => b - a)`. */
  function SortByAmountDesc(es: seq<Entry>): (r: seq<Entry>)
    ensures NonIncreasing(r)
    ensures multiset(r) == multiset(es)
    ensures |r| == |es|
  {
    if es == [] then []
    else
      assert es == [es[0]] + es[1..];
      Insert(es[0], SortByAmountDesc(es[1..]))
  }

  /** Sorting neither adds nor drops an entry. */
  lemma SortedMembers(es: seq<Entry>)
    ensures forall i :: 0 <= i < |SortByAmountDesc(es)| ==> SortByAmountDesc(es)[i] in es
  {
    var sorted := SortByAmountDesc(es);
    forall i | 0 <= i < |sorted| ensures sorted[i] in es {
      assert sorted[i] in multiset(es);
    }
  }

  /** The entries with amount `v`, in their order. */
  function WithAmount(es: seq<Entry>, v: int): seq<Entry>
  {
    if es == [] then []
    else (if es[0].amount == v then [es[0]] else []) + WithAmount(es[1..], v)
  }

  /** The tail of a non-increasing list is non-increasing. */
  lemma NonIncreasingTail(es: seq<Entry>)
    requires es != [] && NonIncreasing(es)
    ensures NonIncreasing(es[1..])
  {
    forall i, j | 0 <= i < j < |es| - 1 ensures es[1..][i].amount >= es[1..][j].amount {
      assert es[1..][i] == es[i + 1] && es[1..][j] == es[j + 1];
    }
  }

  /** Filtering a list with one more entry in front. */
  lemma WithAmountCons(x: Entry, es: seq<Entry>, v: int)
    ensures WithAmount([x] + es, v) == (if x.amount == v then [x] else []) + WithAmount(es, v)
  {
    assert ([x] + es)[1..] == es;
  }

  /** Moving an empty list across another changes nothing. */
  lemma SwapEmpty(a: seq<Entry>, b: seq<Entry>, x: seq<Entry>)
    requires a == [] || b == []
    ensures b + (a + x) == a + (b + x)
  {
  }

  /** Inserting puts the entry ahead of every entry with the same amount and keeps their order. */
  lemma {:induction false} InsertStable(e: Entry, sorted: seq<Entry>, v: int)
    requires NonIncreasing(sorted)
    ensures WithAmount(Insert(e, sorted), v) == (if e.amount == v then [e] else []) + WithAmount(sorted, v)
  {
    if sorted == [] {
      WithAmountCons(e, [], v);
    } else if e.amount >= sorted[0].amount {
      assert Insert(e, sorted) == [e] + sorted;
      WithAmountCons(e, sorted, v);
    } else {
      var head := sorted[0];
      var rest := Insert(e, sorted[1..]);
      var mine := if e.amount == v then [e] else [];
      var theirs := if head.amount == v then [head] else [];
      var later := WithAmount(sorted[1..], v);
      NonIncreasingTail(sorted);
      InsertStable(e, sorted[1..], v);
      assert Insert(e, sorted) == [head] + rest;
      WithAmountCons(head, rest, v);
      assert WithAmount(sorted, v) == theirs + later;
      SwapEmpty(mine, theirs, later);
    }
  }

  /**
   * The sort is stable: for every amount, the entries with that amount
   * come out in the order they went in, as JavaScript's `sort` promises.
   */
  lemma {:induction false} SortStable(es: seq<Entry>, v: int)
    ensures WithAmount(SortByAmountDesc(es), v) == WithAmount(es, v)
  {
    if es != [] {
      SortStable(es[1..], v);
      InsertStable(es[0], SortByAmountDesc(es[1..]), v);
    }
  }

  /** The amounts of a list of entries, added up. */
  function SumAmounts(es: seq<Entry>): int
  {
    if es == [] then 0 else es[0].amount + SumAmounts(es[1..])
  }

  /** Inserting adds the entry's amount. */
  lemma {:induction false} InsertAddsAmount(e: Entry, sorted: seq<Entry>)
    requires NonIncreasing(sorted)
    ensures SumAmounts(Insert(e, sorted)) == e.amount + SumAmounts(sorted)
  {
    if sorted != [] && e.amount < sorted[0].amount {
      InsertAddsAmount(e, sorted[1..]);
      assert ([sorted[0]] + Insert(e, sorted[1..]))[1..] == Insert(e, sorted[1..]);
    }
  }

  /** Sorting does not change what the amounts add up to. */
  lemma {:induction false} SortKeepsSum(es: seq<Entry>)
    ensures SumAmounts(SortByAmountDesc(es)) == SumAmounts(es)
  {
    if es != [] {
      SortKeepsSum(es[1..]);
      InsertAddsAmount(es[0], SortByAmountDesc(es[1..]));
    }
  }

  /** The categories of a list of entries, in order. */
  function Keys(es: seq<Entry>): (cs: seq<string>)
    ensures |cs| == |es|
    ensures forall i :: 0 <= i < |es| ==> cs[i] == es[i].category
  {
    if es == [] then [] else [es[0].category] + Keys(es[1..])
  }

  /** An entry list of the per-category totals adds up the shares of its keys. */
  lemma {:induction false} EntryAmountsAreShares(xs: seq<Invoice>, es: seq<Entry>)
    requires forall i :: 0 <= i < |es| ==> es[i].amount == CategoryShare(xs, es[i].category)
    ensures SumAmounts(es) == SumShares(xs, Keys(es))
  {
    if es != [] {
      EntryAmountsAreShares(xs, es[1..]);
      assert Keys(es)[1..] == Keys(es[1..]);
    }
  }

  /**
   * The amounts of the displayed categories add up to the grand total:
   * the breakdown partitions the invoices' totals.
   */
  lemma DisplayedAmountsAddUp(xs: seq<Invoice>, es: seq<Entry>)
    requires IsEntryList(es, CategoryTotals(xs))
    ensures SumAmounts(SortByAmountDesc(es)) == Sum(xs, TotalOf)
  {
    var m := CategoryTotals(xs);
    SortKeepsSum(es);
    EntryAmountsAreShares(xs, es);
    var cs := Keys(es);
    assert Distinct(cs);
    assert Categories(xs) <= set j | 0 <= j < |cs| :: cs[j] by {
      forall c | c in Categories(xs) ensures c in set j | 0 <= j < |cs| :: cs[j] {
        assert c in m;
        var i :| 0 <= i < |es| && es[i].category == c;
        assert cs[i] == c;
      }
    }
    SharesPartitionGrandTotal(xs, cs);
  }

  /** The row width: 0 unless the grand total is positive, else the amount's share in percent. */
  function Percentage(amount: int, grandTotal: int): (p: real)
    ensures grandTotal <= 0 ==> p == 0.0
    ensures grandTotal > 0 ==> p * (grandTotal as real) == (amount as real) * 100.0
  {
    if grandTotal > 0 then (amount as real) / (grandTotal as real) * 100.0 else 0.0
  }

  /** A category's non-negative amount within the grand total is between 0 and 100 percent. */
  lemma PercentageBounded(amount: int, grandTotal: int)
    requires 0 <= amount <= grandTotal
    ensures 0.0 <= Percentage(amount, grandTotal) <= 100.0
  {
  }

  const FallbackColor := "bg-gray-500"

  /** `categoryColors`: the suggested categories and their bar colours. */
  const CategoryColors: map<string, string> := map[
    "Alimentación" := "bg-emerald-500",
    "Transporte" := "bg-blue-500",
    "Servicios" := "bg-amber-500",
    "Oficina" := "bg-slate-500",
    "Tecnología" := "bg-cyan-500",
    "Salud" := "bg-rose-500",
    "Entretenimiento" := "bg-fuchsia-500",
    "Otros" := "bg-gray-500"
  ]

  /** `categoryColors[category] || "bg-gray-500"`: an unknown category gets the fallback colour. */
  function ColorOf(category: string): (color: string)
    ensures category !in CategoryColors ==> color == FallbackColor
    ensures category in CategoryColors ==> color == CategoryColors[category]
  {
    if category in CategoryColors then CategoryColors[category] else FallbackColor
  }

  /** One rendered line of the breakdown. */
  datatype Row = Row(category: string, amount: int, percentage: real, color: string)

  /** The breakdown section: absent when there are no categories, else one row per sorted entry. */
  function Breakdown(s: Summary, es: seq<Entry>): (section: Option<seq<Row>>)
    ensures section.None? <==> es == []
    ensures section.Some? ==> |section.value| == |es|
    ensures section.Some? ==> forall i, j :: 0 <= i < j < |section.value| ==>
      section.value[i].amount >= section.value[j].amount
    ensures section.Some? ==> forall i :: 0 <= i < |section.value| ==>
      Entry(section.value[i].category, section.value[i].amount) in es
      && section.value[i].percentage == Percentage(section.value[i].amount, s.grandTotal)
      && section.value[i].color == ColorOf(section.value[i].category)
    ensures section.Some? ==> forall i :: 0 <= i < |section.value| ==>
      Entry(section.value[i].category, section.value[i].amount) == SortByAmountDesc(es)[i]
  {
    if es == [] then None
    else
      var sorted := SortByAmountDesc(es);
      SortedMembers(es);
      Some(seq(|sorted|, i requires 0 <= i < |sorted| =>
        Row(sorted[i].category, sorted[i].amount, Percentage(sorted[i].amount, s.grandTotal), ColorOf(sorted[i].category))))
  }

  /** The entry a row displays. */
  function RowEntry(row: Row): Entry
  {
    Entry(row.category, row.amount)
  }

  /** Every entry gets a row, as many times as it occurs: the rows are a permutation of the entries. */
  lemma BreakdownShowsEveryEntry(s: Summary, es: seq<Entry>)
    requires es != []
    ensures var rows := Breakdown(s, es).value;
      multiset(seq(|rows|, i requires 0 <= i < |rows| => RowEntry(rows[i]))) == multiset(es)
  {
    var rows := Breakdown(s, es).value;
    var shown := seq(|rows|, i requires 0 <= i < |rows| => RowEntry(rows[i]));
    assert shown == SortByAmountDesc(es);
  }

  /** The section shows exactly when some invoice is in the window. */
  lemma SectionShownIffInvoices(xs: seq<Invoice>, es: seq<Entry>, s: Summary)
    requires IsEntryList(es, CategoryTotals(xs))
    ensures Breakdown(s, es).Some? <==> xs != []
  {
    if xs != [] {
      assert xs[0].category in Categories(xs);
    }
  }
}

=== FILE: invoice_form.dfy ===
/**
 * The manual entry form of components/invoice-form.tsx: validation, the
 * invoice built on submit (total = amount + tax), and the state after a
 * submission. The browser's `Number()` conversion of the text fields is a
 * parameter returning cents, or None where JavaScript gives NaN.
 */
module InvoiceForm {
  import opened Base
  import opened Text
  import opened InvoiceStore

  /** The form's text fields. */
  datatype FormData = FormData(
    vendor: string,
    description: string,
    amount: string,
    tax: string,
    date: string,
    category: string)

  /** `Number(text)` in cents; None for NaN. */
  type NumberParser = string -> Option<int>

  /** The component's state: fields, inline error, success banner. */
  datatype FormState = FormState(data: FormData, error: Option<string>, success: bool)

  const VendorRequired := "El nombre del proveedor es requerido"
  const AmountRequired := "El monto es requerido y debe ser un número"
  const AmountNotPositive := "El monto debe ser mayor a 0"
  const DateRequired := "La fecha es requerida"
  const SaveFailed := "Error al guardar la factura"

  /** Empty fields, the given date (today), category "Otros": the initial and the post-save form. */
  function EmptyForm(today: string): (f: FormData)
    ensures f.vendor == "" && f.description == "" && f.amount == "" && f.tax == ""
    ensures f.date == today && f.category == OtherCategory
  {
    FormData("", "", "", "", today, OtherCategory)
  }

  /** The form's state when first shown. */
  function InitialState(today: string): (st: FormState)
    ensures st.data == EmptyForm(today) && st.error.None? && !st.success
  {
    FormState(EmptyForm(today), None, false)
  }

  /** Everything `validateForm` checks holds. */
  predicate Valid(f: FormData, number: NumberParser)
  {
    && Trim(f.vendor) != ""
    && f.amount != "" && number(f.amount).Some? && number(f.amount).value > 0
    && f.date != ""
  }

  /** `validateForm`: the first failing check's message, in a fixed order, or null. */
  function ValidateForm(f: FormData, number: NumberParser): (err: Option<string>)
    ensures err.None? <==> Valid(f, number)
    ensures Trim(f.vendor) == "" ==> err == Some(VendorRequired)
    ensures Trim(f.vendor) != "" && (f.amount == "" || number(f.amount).None?) ==> err == Some(AmountRequired)
    ensures err == Some(AmountNotPositive) ==> Trim(f.vendor) != "" && number(f.amount).Some? && number(f.amount).value <= 0
    ensures err == Some(DateRequired) ==> f.date == "" && Trim(f.vendor) != "" && number(f.amount).Some?
    ensures Trim(f.vendor) != "" && f.amount != "" && number(f.amount).Some? && number(f.amount).value <= 0 ==>
      err == Some(AmountNotPositive)
    ensures Trim(f.vendor) != "" && f.amount != "" && number(f.amount).Some? && number(f.amount).value > 0 && f.date == "" ==>
      err == Some(DateRequired)
  {
    if Trim(f.vendor) == "" then Some(VendorRequired)
    else if f.amount == "" || number(f.amount).None? then Some(AmountRequired)
    else if number(f.amount).value <= 0 then Some(AmountNotPositive)
    else if f.date == "" then Some(DateRequired)
    else None
  }

  /** `Number(tax) || 0`: NaN and zero both give 0. */
  function TaxOf(f: FormData, number: NumberParser): (t: int)
    ensures number(f.tax).None? ==> t == 0
    ensures number(f.tax).Some? ==> t == number(f.tax).value
  {
    if number(f.tax).Some? then number(f.tax).value else 0
  }

  /** The invoice `handleSubmit` passes to `saveInvoice`. */
  function BuildInvoice(f: FormData, number: NumberParser): (inv: NewInvoice)
    requires Valid(f, number)
    ensures inv.total == inv.amount + inv.tax
    ensures inv.amount == number(f.amount).value > 0
    ensures inv.vendor == Trim(f.vendor) && inv.description == Trim(f.description)
    ensures inv.date == f.date && inv.category == f.category && inv.imageUrl.None?
  {
    var amount := number(f.amount).value;
    var tax := TaxOf(f, number);
    NewInvoice(Trim(f.vendor), Trim(f.description), amount, tax, amount + tax, f.date, f.category, None)
  }

  /**
   * The tax field starts empty, and `Number("")` is 0: with a parser that
   * agrees, an empty tax adds nothing and the total is the amount.
   */
  lemma EmptyTaxIsZero(f: FormData, number: NumberParser)
    requires number("") == Some(0)
    requires f.tax == ""
    ensures TaxOf(f, number) == 0
    ensures Valid(f, number) ==> BuildInvoice(f, number).total == BuildInvoice(f, number).amount
  {
  }

  /** A submission: the state afterwards and the invoice handed to `saveInvoice`, if it was called. */
  datatype Submission = Submission(state: FormState, saved: Option<NewInvoice>)

  /**
   * `handleSubmit`: a validation error stops before saving; a save that
   * returns (even null) shows success and resets the fields; a throw shows
   * its message and keeps the fields.
   */
  function HandleSubmit(st: FormState, number: NumberParser, today: string, attempt: SaveAttempt): (sub: Submission)
    ensures sub.saved.None? <==> !Valid(st.data, number)
    ensures !Valid(st.data, number) ==>
      sub.state == FormState(st.data, ValidateForm(st.data, number), false)
    ensures sub.saved.Some? ==> sub.saved.value == BuildInvoice(st.data, number)
    ensures Valid(st.data, number) && attempt.Returned? ==> sub.state == FormState(EmptyForm(today), None, true)
    ensures Valid(st.data, number) && attempt.SaveThrew? ==>
      sub.state.data == st.data && !sub.state.success && sub.state.error.Some?
    ensures Valid(st.data, number) && attempt.SaveThrew? ==>
      sub.state.error == Some(if attempt.thrown.Some? then attempt.thrown.value else SaveFailed)
  {
    var err := ValidateForm(st.data, number);
    if err.Some? then Submission(FormState(st.data, err, false), None)
    else
      var inv := BuildInvoice(st.data, number);
      match attempt
      case Returned(_) => Submission(FormState(EmptyForm(today), None, true), Some(inv))
      case SaveThrew(thrown) =>
        Submission(FormState(st.data, Some(if thrown.Some? then thrown.value else SaveFailed), false), Some(inv))
  }

  /**
   * `saveInvoice` reports a database error by returning null rather than
   * throwing, and the form does not look at the result: a failed insert is
   * still shown as a success and the fields are cleared.
   */
  lemma FailedInsertShownAsSuccess(st: FormState, number: NumberParser, today: string)
    requires Valid(st.data, number)
    ensures SaveInvoice(BuildInvoice(st.data, number), InsertFailed).None?
    ensures HandleSubmit(st, number, today, Returned(InsertFailed)).state.success
  {
  }

  /** A blank-looking vendor (only white space) is refused first, whatever else is filled in. */
  lemma BlankVendorRejected(f: FormData, number: NumberParser)
    requires forall k :: 0 <= k < |f.vendor| ==> IsJsSpace(f.vendor[k])
    ensures ValidateForm(f, number) == Some(VendorRequired)
  {
  }
}

=== FILE: invoice_store.dfy ===
/**
 * Invoice records and the pure parts of lib/invoice-store.ts: the row
 * mapping used by `saveInvoice` and `mapDbToInvoice`, and the time-window
 * filter. Amounts are integer cents; dates stay the strings the app
 * stores, turned into instants by a caller-supplied parser.
 */
module InvoiceStore {
  import opened Base

  /** The app's invoice record (lib/types.ts). */
  datatype Invoice = Invoice(
    id: string,
    vendor: string,
    description: string,
    amount: int,
    tax: int,
    total: int,
    date: string,
    category: string,
    imageUrl: Option<string>,
    createdAt: string)

  /** What callers hand to `saveInvoice`: an invoice without `id` and `createdAt`. */
  datatype NewInvoice = NewInvoice(
    vendor: string,
    description: string,
    amount: int,
    tax: int,
    total: int,
    date: string,
    category: string,
    imageUrl: Option<string>)

  /** A row of the `invoices` table; the subtotal column holds the invoice's `amount`. */
  datatype DbRow = DbRow(
    id: string,
    vendor: string,
    description: Option<string>,
    subtotal: int,
    tax: int,
    total: int,
    date: string,
    category: string,
    imageUrl: Option<string>,
    createdAt: string)

  /** `x || undefined` for an optional string: an empty string is dropped too. */
  function TruthyText(s: Option<string>): (r: Option<string>)
    ensures r.Some? <==> s.Some? && s.value != ""
    ensures r.Some? ==> r == s
  {
    if s.Some? && s.value != "" then s else None
  }

  /** `mapDbToInvoice`. */
  function MapDbToInvoice(row: DbRow): (inv: Invoice)
    ensures inv.amount == row.subtotal && inv.tax == row.tax && inv.total == row.total
    ensures inv.id == row.id && inv.vendor == row.vendor && inv.date == row.date
    ensures inv.category == row.category && inv.createdAt == row.createdAt
    ensures row.description.None? ==> inv.description == ""
    ensures row.description.Some? ==> inv.description == row.description.value
    ensures inv.imageUrl.None? <==> row.imageUrl.None? || row.imageUrl == Some("")
  {
    Invoice(
      row.id,
      row.vendor,
      if row.description.Some? then row.description.value else "",
      row.subtotal,
      row.tax,
      row.total,
      row.date,
      row.category,
      TruthyText(row.imageUrl),
      row.createdAt)
  }

  /**
   * The row the insert in `saveInvoice` creates, given the key and
   * timestamp the database assigns: `amount` goes to `subtotal`, an
   * undefined `imageUrl` becomes a null `image_url`.
   */
  function InsertedRow(inv: NewInvoice, id: string, createdAt: string): (row: DbRow)
    ensures row.subtotal == inv.amount && row.description == Some(inv.description)
    ensures row.imageUrl == inv.imageUrl
  {
    DbRow(id, inv.vendor, Some(inv.description), inv.amount, inv.tax, inv.total,
          inv.date, inv.category, inv.imageUrl, createdAt)
  }

  /** How the insert went: a new row with its key and timestamp, or an error object. */
  datatype Insert = Inserted(id: string, createdAt: string) | InsertFailed

  /** `saveInvoice`: the mapped new row, or null on an error. */
  function SaveInvoice(inv: NewInvoice, insert: Insert): (r: Option<Invoice>)
    ensures r.None? <==> insert.InsertFailed?
  {
    if insert.InsertFailed? then None
    else Some(MapDbToInvoice(InsertedRow(inv, insert.id, insert.createdAt)))
  }

  /** A call of `saveInvoice` as its caller sees it: it returns (an invoice or null), or it throws. */
  datatype SaveAttempt = Returned(insert: Insert) | SaveThrew(thrown: Option<string>)

  /** The category both entry paths fall back to. */
  const OtherCategory := "Otros"

  /**
   * Saving and reading back keeps every field the caller gave, except that
   * an empty image URL comes back undefined.
   */
  lemma SaveRoundTrip(inv: NewInvoice, id: string, createdAt: string)
    ensures SaveInvoice(inv, Inserted(id, createdAt)) == Some(Invoice(
      id, inv.vendor, inv.description, inv.amount, inv.tax, inv.total,
      inv.date, inv.category, TruthyText(inv.imageUrl), createdAt))
  {
  }

  /** The selectable windows. */
  datatype TimeRange = Day | Week | Month | All

  const DayMs := 86_400_000

  /**
   * The instants the filter needs, in milliseconds: now, today's local
   * midnight, and now moved back one calendar month by the date library.
   */
  datatype Clock = Clock(now: int, todayMidnight: int, monthAgo: int)

  /**
   * Today's midnight is not after now and lies within the last week, and a
   * month reaches back further than a week. A day may be longer than
   * `DayMs` when daylight saving ends, so nothing tighter is assumed.
   */
  predicate WellFormedClock(c: Clock)
  {
    && c.now - 7 * DayMs <= c.todayMidnight <= c.now
    && c.monthAgo <= c.now - 7 * DayMs
  }

  /** `startDate` for a window other than `all`. */
  function StartDate(range: TimeRange, c: Clock): (start: int)
    requires range != All
    ensures WellFormedClock(c) ==> start <= c.now
  {
    match range
    case Day => c.todayMidnight
    case Week => c.now - 7 * DayMs
    case Month => c.monthAgo
  }

  /** `new Date(inv.date) >= startDate`: an unparsable date compares as NaN and fails. */
  predicate OnOrAfter(inv: Invoice, start: int, parse: string -> Option<int>)
  {
    parse(inv.date).Some? && parse(inv.date).value >= start
  }

  /** `invoices.filter(inv => new Date(inv.date) >= start)`. */
  function KeepFrom(xs: seq<Invoice>, start: int, parse: string -> Option<int>): (kept: seq<Invoice>)
    ensures |kept| <= |xs|
    ensures forall x :: x in kept <==> x in xs && OnOrAfter(x, start, parse)
    ensures multiset(kept) <= multiset(xs)
  {
    if xs == [] then []
    else
      var last := xs[|xs| - 1];
      assert xs == xs[..|xs| - 1] + [last];
      KeepFrom(xs[..|xs| - 1], start, parse) + (if OnOrAfter(last, start, parse) then [last] else [])
  }

  /** `filterInvoicesByTimeRange`: `all` returns the input itself; no upper bound is applied. */
  function FilterByTimeRange(xs: seq<Invoice>, range: TimeRange, c: Clock, parse: string -> Option<int>): (r: seq<Invoice>)
    ensures range == All ==> r == xs
    ensures range != All ==> forall x :: x in r <==> x in xs && OnOrAfter(x, StartDate(range, c), parse)
  {
    if range == All then xs else KeepFrom(xs, StartDate(range, c), parse)
  }

  /** The filter keeps the input order: it distributes over concatenation. */
  lemma {:induction false} KeepFromAppend(a: seq<Invoice>, b: seq<Invoice>, start: int, parse: string -> Option<int>)
    ensures KeepFrom(a + b, start, parse) == KeepFrom(a, start, parse) + KeepFrom(b, start, parse)
    decreases |b|
  {
    if b == [] {
      assert a + b == a;
    } else {
      var b' := b[..|b| - 1];
      var last := b[|b| - 1];
      var tail := if OnOrAfter(last, start, parse) then [last] else [];
      var ab := a + b;
      InitOfAppend(a, b);
      assert KeepFrom(ab, start, parse) == KeepFrom(a + b', start, parse) + tail;
      assert KeepFrom(b, start, parse) == KeepFrom(b', start, parse) + tail;
      KeepFromAppend(a, b', start, parse);
    }
  }

  /** Filtering from a later start is filtering the earlier result again: the windows nest as subsequences. */
  lemma {:induction false} KeepFromNests(xs: seq<Invoice>, early: int, late: int, parse: string -> Option<int>)
    requires early <= late
    ensures KeepFrom(KeepFrom(xs, early, parse), late, parse) == KeepFrom(xs, late, parse)
  {
    if xs != [] {
      var init := xs[..|xs| - 1];
      var last := xs[|xs| - 1];
      KeepFromNests(init, early, late, parse);
      var tail := if OnOrAfter(last, early, parse) then [last] else [];
      KeepFromAppend(KeepFrom(init, early, parse), tail, late, parse);
      if OnOrAfter(last, early, parse) {
        assert KeepFrom([last], late, parse) == (if OnOrAfter(last, late, parse) then [last] else []) by {
          assert [last][..0] == [];
        }
      }
    }
  }

  /** With a well-formed clock the windows nest: day within week within month within all. */
  lemma WindowsNest(xs: seq<Invoice>, c: Clock, parse: string -> Option<int>)
    requires WellFormedClock(c)
    ensures FilterByTimeRange(FilterByTimeRange(xs, Week, c, parse), Day, c, parse) == FilterByTimeRange(xs, Day, c, parse)
    ensures FilterByTimeRange(FilterByTimeRange(xs, Month, c, parse), Week, c, parse) == FilterByTimeRange(xs, Week, c, parse)
    ensures forall x :: x in FilterByTimeRange(xs, Day, c, parse) ==> x in FilterByTimeRange(xs, Week, c, parse)
    ensures forall x :: x in FilterByTimeRange(xs, Week, c, parse) ==> x in FilterByTimeRange(xs, Month, c, parse)
    ensures forall x :: x in FilterByTimeRange(xs, Month, c, parse) ==> x in FilterByTimeRange(xs, All, c, parse)
  {
    KeepFromNests(xs, StartDate(Week, c), StartDate(Day, c), parse);
    KeepFromNests(xs, StartDate(Month, c), StartDate(Week, c), parse);
  }

  /** The week window: an invoice is in it iff its instant is at most seven days of milliseconds before now. */
  lemma WeekWindowBoundary(x: Invoice, xs: seq<Invoice>, c: Clock, parse: string -> Option<int>)
    requires x in xs && parse(x.date).Some?
    ensures x in FilterByTimeRange(xs, Week, c, parse) <==> parse(x.date).value >= c.now - 7 * DayMs
  {
  }

  /** The month window: an invoice is in it iff its instant is at or after now moved back a month. */
  lemma MonthWindowBoundary(x: Invoice, xs: seq<Invoice>, c: Clock, parse: string -> Option<int>)
    requires x in xs && parse(x.date).Some?
    ensures x in FilterByTimeRange(xs, Month, c, parse) <==> parse(x.date).value >= c.monthAgo
  {
  }

  /** The day window: dated before today's midnight is out, any instant from midnight on (future included) is in. */
  lemma DayWindowBoundary(x: Invoice, xs: seq<Invoice>, c: Clock, parse: string -> Option<int>)
    requires x in xs && parse(x.date).Some?
    ensures x in FilterByTimeRange(xs, Day, c, parse) <==> parse(x.date).value >= c.todayMidnight
  {
  }
}

=== FILE: invoice_summary.dfy ===
/**
 * `calculateSummary` of lib/invoice-store.ts: a single pass adding up
 * amounts, taxes and totals, and totals per category. The sums are
 * defined independently below; the method's loop is proved to compute
 * them.
 */
module InvoiceSummary {
  import opened Base
  import opened InvoiceStore

  /** The summary shown on the dashboard (lib/types.ts). */
  datatype Summary = Summary(
    totalAmount: int,
    totalTax: int,
    grandTotal: int,
    invoiceCount: nat,
    byCategory: map<string, int>)

  /** Which figure of an invoice is being added up. */
  datatype Measure = AmountOf | TaxOf | TotalOf

  function Figure(inv: Invoice, m: Measure): int
  {
    match m
    case AmountOf => inv.amount
    case TaxOf => inv.tax
    case TotalOf => inv.total
  }

  /** The sum of one figure over the invoices. */
  function Sum(xs: seq<Invoice>, m: Measure): int
  {
    if xs == [] then 0 else Sum(xs[..|xs| - 1], m) + Figure(xs[|xs| - 1], m)
  }

  /** The sum of the totals of the invoices filed under category `c`. */
  function CategoryShare(xs: seq<Invoice>, c: string): int
  {
    if xs == [] then 0
    else CategoryShare(xs[..|xs| - 1], c) + (if xs[|xs| - 1].category == c then xs[|xs| - 1].total else 0)
  }

  /** The categories that occur among the invoices. */
  function Categories(xs: seq<Invoice>): set<string>
  {
    set i | 0 <= i < |xs| :: xs[i].category
  }

  /** Each occurring category mapped to its share. */
  function CategoryTotals(xs: seq<Invoice>): (m: map<string, int>)
    ensures m.Keys == Categories(xs)
  {
    map c | c in Categories(xs) :: CategoryShare(xs, c)
  }

  /** A category that does not occur has a zero share. */
  lemma {:induction false} AbsentCategoryShare(xs: seq<Invoice>, c: string)
    requires c !in Categories(xs)
    ensures CategoryShare(xs, c) == 0
  {
    if xs != [] {
      var init := xs[..|xs| - 1];
      assert Categories(init) <= Categories(xs) by {
        forall k | k in Categories(init) ensures k in Categories(xs) {
          var i :| 0 <= i < |init| && init[i].category == k;
          assert xs[i] == init[i];
        }
      }
      AbsentCategoryShare(init, c);
    }
  }

  /** Adding one invoice updates exactly its own category's entry, starting from 0 when new. */
  lemma CategoryTotalsStep(ys: seq<Invoice>, x: Invoice)
    ensures var m := CategoryTotals(ys);
      CategoryTotals(ys + [x]) == m[x.category := (if x.category in m then m[x.category] else 0) + x.total]
  {
    var m := CategoryTotals(ys);
    var m' := CategoryTotals(ys + [x]);
    var expected := m[x.category := (if x.category in m then m[x.category] else 0) + x.total];
    CategoriesSnoc(ys, x);
    if x.category !in Categories(ys) {
      AbsentCategoryShare(ys, x.category);
    }
    forall c | c in m'.Keys ensures m'[c] == expected[c] {
      ShareSnoc(ys, x, c);
    }
    assert m'.Keys == expected.Keys;
  }

  /** Appending an invoice adds its category to the occurring ones. */
  lemma CategoriesSnoc(ys: seq<Invoice>, x: Invoice)
    ensures Categories(ys + [x]) == Categories(ys) + {x.category}
  {
    var zs := ys + [x];
    forall k | k in Categories(zs) ensures k in Categories(ys) + {x.category} {
      var i :| 0 <= i < |zs| && zs[i].category == k;
      if i < |ys| { assert zs[i] == ys[i]; }
    }
    forall k | k in Categories(ys) ensures k in Categories(zs) {
      var i :| 0 <= i < |ys| && ys[i].category == k;
      assert zs[i] == ys[i];
    }
    assert zs[|ys|] == x;
  }

  /** Appending an invoice adds its total to its own category's share only. */
  lemma ShareSnoc(ys: seq<Invoice>, x: Invoice, c: string)
    ensures CategoryShare(ys + [x], c) == CategoryShare(ys, c) + (if x.category == c then x.total else 0)
  {
  }

  /** `calculateSummary(invoices)`. */
  method CalculateSummary(xs: seq<Invoice>) returns (s: Summary)
    ensures s.invoiceCount == |xs|
    ensures s.totalAmount == Sum(xs, AmountOf)
    ensures s.totalTax == Sum(xs, TaxOf)
    ensures s.grandTotal == Sum(xs, TotalOf)
    ensures s.byCategory == CategoryTotals(xs)
  {
    var byCategory: map<string, int> := map[];
    var totalAmount := 0;
    var totalTax := 0;
    var grandTotal := 0;
    for i := 0 to |xs|
      invariant totalAmount == Sum(xs[..i], AmountOf)
      invariant totalTax == Sum(xs[..i], TaxOf)
      invariant grandTotal == Sum(xs[..i], TotalOf)
      invariant byCategory == CategoryTotals(xs[..i])
    {
      var inv := xs[i];
      assert xs[..i + 1] == xs[..i] + [inv];
      assert xs[..i + 1][..i] == xs[..i];
      CategoryTotalsStep(xs[..i], inv);
      totalAmount := totalAmount + inv.amount;
      totalTax := totalTax + inv.tax;
      grandTotal := grandTotal + inv.total;
      var sofar := if inv.category in byCategory then byCategory[inv.category] else 0;
      byCategory := byCategory[inv.category := sofar + inv.total];
    }
    assert xs[..|xs|] == xs;
    s := Summary(totalAmount, totalTax, grandTotal, |xs|, byCategory);
  }

  /** No two positions of the list hold the same category. */
  predicate Distinct(cs: seq<string>)
  {
    forall i, j :: 0 <= i < j < |cs| ==> cs[i] != cs[j]
  }

  /** The shares of the listed categories, added up. */
  function SumShares(xs: seq<Invoice>, cs: seq<string>): int
  {
    if cs == [] then 0 else CategoryShare(xs, cs[0]) + SumShares(xs, cs[1..])
  }

  /** One more invoice adds its total once to a distinct list that names its category. */
  lemma {:induction false} SumSharesStep(ys: seq<Invoice>, x: Invoice, cs: seq<string>)
    requires Distinct(cs)
    ensures SumShares(ys + [x], cs) == SumShares(ys, cs) + (if x.category in cs then x.total else 0)
  {
    var zs := ys + [x];
    assert zs[..|zs| - 1] == ys;
    if cs != [] {
      assert Distinct(cs[1..]);
      assert cs[0] !in cs[1..];
      assert x.category in cs <==> x.category == cs[0] || x.category in cs[1..];
      SumSharesStep(ys, x, cs[1..]);
    }
  }

  /**
   * Every invoice lands in exactly one category: the shares of any
   * distinct list covering the occurring categories add up to the sum of
   * the totals.
   */
  lemma {:induction false} SharesPartitionGrandTotal(xs: seq<Invoice>, cs: seq<string>)
    requires Distinct(cs)
    requires Categories(xs) <= set j | 0 <= j < |cs| :: cs[j]
    ensures SumShares(xs, cs) == Sum(xs, TotalOf)
  {
    if xs == [] {
      SharesOfNothing(cs);
    } else {
      var init := xs[..|xs| - 1];
      var last := xs[|xs| - 1];
      assert xs == init + [last];
      assert Categories(init) <= Categories(xs) by {
        forall k | k in Categories(init) ensures k in Categories(xs) {
          var i :| 0 <= i < |init| && init[i].category == k;
          assert xs[i] == init[i];
        }
      }
      SharesPartitionGrandTotal(init, cs);
      assert last.category in Categories(xs);
      SumSharesStep(init, last, cs);
    }
  }

  /** Nothing to share: every share of the empty list is zero. */
  lemma {:induction false} SharesOfNothing(cs: seq<string>)
    ensures SumShares([], cs) == 0
  {
    if cs != [] {
      SharesOfNothing(cs[1..]);
    }
  }

  /** The empty input gives zeros and no categories. */
  lemma EmptySummary()
    ensures Sum([], AmountOf) == 0 && Sum([], TaxOf) == 0 && Sum([], TotalOf) == 0
    ensures CategoryTotals([]) == map[]
  {
  }

  /** The worked example: 100 + 18 = 118 on food and 50 on "Otros". */
  lemma WorkedExample()
    ensures var food := Invoice("1", "A", "", 100, 18, 118, "2024-01-01", "Alimentación", None, "");
      var other := Invoice("2", "B", "", 50, 0, 50, "2024-01-02", "Otros", None, "");
      var xs := [food, other];
      && Sum(xs, AmountOf) == 150 && Sum(xs, TaxOf) == 18 && Sum(xs, TotalOf) == 168
      && CategoryTotals(xs) == map["Alimentación" := 118, "Otros" := 50]
  {
    var food := Invoice("1", "A", "", 100, 18, 118, "2024-01-01", "Alimentación", None, "");
    var other := Invoice("2", "B", "", 50, 0, 50, "2024-01-02", "Otros", None, "");
    var xs := [food, other];
    assert xs[..1] == [food];
    assert [food][..0] == [];
    CategoryTotalsStep([], food);
    CategoryTotalsStep([food], other);
    assert [food] + [other] == xs;
    assert [] + [food] == [food];
    assert Sum([food], AmountOf) == 100 && Sum([food], TaxOf) == 18 && Sum([food], TotalOf) == 118;
  }
}

=== FILE: invoice_upload.dfy ===
/**
 * The review step of components/invoice-upload.tsx: the editable draft of
 * an extracted invoice, the defaults applied when it is saved, and the
 * state transitions of save, cancel and field edits. The extraction call
 * and file reading are not modelled.
 */
module InvoiceUpload {
  import opened Base
  import opened InvoiceStore

  /** The extracted guess (`Partial<Invoice>`): every field may be missing. */
  datatype Draft = Draft(
    vendor: Option<string>,
    description: Option<string>,
    amount: Option<int>,
    tax: Option<int>,
    total: Option<int>,
    date: Option<string>,
    category: Option<string>)

  /** The component's state: the draft under review, the image preview, the error banner. */
  datatype UploadState = UploadState(draft: Option<Draft>, preview: Option<string>, error: Option<string>)

  const UnknownVendor := "Desconocido"
  const DatabaseSaveFailed := "Error al guardar la factura en la base de datos"
  const SaveFailed := "Error al guardar"

  /** `text || fallback`: missing and empty both fall back. */
  function TextOr(text: Option<string>, fallback: string): (r: string)
    ensures text.Some? && text.value != "" ==> r == text.value
    ensures text.None? || text.value == "" ==> r == fallback
  {
    if text.Some? && text.value != "" then text.value else fallback
  }

  /** `n || 0` for a whole number of cents. */
  function NumberOr0(n: Option<int>): (r: int)
    ensures n.Some? ==> r == n.value
    ensures n.None? ==> r == 0
  {
    if n.Some? then n.value else 0
  }

  /** The invoice `handleSave` builds from the draft, with `today` as the fallback date. */
  function Defaulted(d: Draft, today: string, preview: Option<string>): (inv: NewInvoice)
    ensures inv.vendor == TextOr(d.vendor, UnknownVendor)
    ensures inv.description == TextOr(d.description, "")
    ensures inv.amount == NumberOr0(d.amount) && inv.tax == NumberOr0(d.tax) && inv.total == NumberOr0(d.total)
    ensures inv.date == TextOr(d.date, today)
    ensures inv.category == TextOr(d.category, OtherCategory)
    ensures inv.imageUrl == TruthyText(preview)
  {
    NewInvoice(
      TextOr(d.vendor, UnknownVendor),
      TextOr(d.description, ""),
      NumberOr0(d.amount),
      NumberOr0(d.tax),
      NumberOr0(d.total),
      TextOr(d.date, today),
      TextOr(d.category, OtherCategory),
      TruthyText(preview))
  }

  /** An empty guess saves as an unknown vendor, zero amounts, today's date, category "Otros". */
  lemma EmptyDraftDefaults(today: string)
    ensures Defaulted(Draft(None, None, None, None, None, None, None), today, None) ==
      NewInvoice(UnknownVendor, "", 0, 0, 0, today, OtherCategory, None)
  {
  }

  /**
   * Unlike the manual form, the total is stored as given: a draft whose
   * total disagrees with amount + tax is saved with that total.
   */
  lemma TotalNotRecomputed(d: Draft, today: string, id: string, createdAt: string)
    requires d.total.Some? && d.amount.Some? && d.tax.Some?
    ensures var saved := SaveInvoice(Defaulted(d, today, None), Inserted(id, createdAt));
      saved.Some? && saved.value.total == d.total.value
  {
  }

  /** A successful save followed by reading the row back gives the defaulted fields. */
  lemma SavedDraftRoundTrips(d: Draft, today: string, preview: Option<string>, id: string, createdAt: string)
    ensures var inv := Defaulted(d, today, preview);
      SaveInvoice(inv, Inserted(id, createdAt)) == Some(Invoice(
        id, inv.vendor, inv.description, inv.amount, inv.tax, inv.total, inv.date, inv.category, inv.imageUrl, createdAt))
  {
  }

  /** The state after `handleSave` and the invoice it passed to `saveInvoice`, if any. */
  datatype SaveStep = SaveStep(state: UploadState, saved: Option<NewInvoice>)

  /**
   * `handleSave`: nothing without a draft; a stored row clears draft and
   * preview; a null result or a throw keeps them and shows an error.
   */
  function HandleSave(st: UploadState, today: string, attempt: SaveAttempt): (step: SaveStep)
    ensures st.draft.None? ==> step == SaveStep(st, None)
    ensures st.draft.Some? ==> step.saved == Some(Defaulted(st.draft.value, today, st.preview))
    ensures st.draft.Some? && attempt.Returned? && attempt.insert.Inserted? ==>
      step.state == UploadState(None, None, None)
    ensures st.draft.Some? && attempt.Returned? && attempt.insert.InsertFailed? ==>
      step.state == st.(error := Some(DatabaseSaveFailed))
    ensures st.draft.Some? && attempt.SaveThrew? ==>
      step.state.draft == st.draft && step.state.preview == st.preview && step.state.error.Some?
    ensures st.draft.Some? && attempt.SaveThrew? ==>
      step.state == st.(error := Some(if attempt.thrown.Some? then attempt.thrown.value else SaveFailed))
  {
    if st.draft.None? then SaveStep(st, None)
    else
      var inv := Defaulted(st.draft.value, today, st.preview);
      match attempt
      case Returned(insert) =>
        if SaveInvoice(inv, insert).Some? then SaveStep(UploadState(None, None, None), Some(inv))
        else SaveStep(st.(error := Some(DatabaseSaveFailed)), Some(inv))
      case SaveThrew(thrown) =>
        SaveStep(st.(error := Some(if thrown.Some? then thrown.value else SaveFailed)), Some(inv))
  }

  /** `handleCancel`: clears draft, preview and error. */
  function HandleCancel(st: UploadState): (next: UploadState)
    ensures next.draft.None? && next.preview.None? && next.error.None?
  {
    UploadState(None, None, None)
  }

  /** The edits the review form makes. */
  datatype FieldEdit =
    | SetVendor(text: string)
    | SetDescription(text: string)
    | SetAmount(cents: int)
    | SetTax(cents: int)
    | SetTotal(cents: int)
    | SetDate(text: string)
    | SetCategory(text: string)

  /** `updateField(field, value)` on a draft. */
  function Apply(d: Draft, e: FieldEdit): Draft
  {
    match e
    case SetVendor(t) => d.(vendor := Some(t))
    case SetDescription(t) => d.(description := Some(t))
    case SetAmount(n) => d.(amount := Some(n))
    case SetTax(n) => d.(tax := Some(n))
    case SetTotal(n) => d.(total := Some(n))
    case SetDate(t) => d.(date := Some(t))
    case SetCategory(t) => d.(category := Some(t))
  }

  /** `updateField`: a missing draft stays missing; otherwise only the named field changes. */
  function UpdateField(st: UploadState, e: FieldEdit): (next: UploadState)
    ensures st.draft.None? ==> next == st
    ensures next.preview == st.preview && next.error == st.error
    ensures st.draft.Some? ==> next.draft.Some?
    ensures st.draft.Some? && next.draft.Some? ==>
      var d, d' := st.draft.value, next.draft.value;
      && (if e.SetVendor? then d'.vendor == Some(e.text) else d'.vendor == d.vendor)
      && (if e.SetDescription? then d'.description == Some(e.text) else d'.description == d.description)
      && (if e.SetAmount? then d'.amount == Some(e.cents) else d'.amount == d.amount)
      && (if e.SetTax? then d'.tax == Some(e.cents) else d'.tax == d.tax)
      && (if e.SetTotal? then d'.total == Some(e.cents) else d'.total == d.total)
      && (if e.SetDate? then d'.date == Some(e.text) else d'.date == d.date)
      && (if e.SetCategory? then d'.category == Some(e.text) else d'.category == d.category)
  {
    if st.draft.None? then st else st.(draft := Some(Apply(st.draft.value, e)))
  }
}

=== FILE: middleware.dfy ===
/**
 * The request gate of middleware.ts: a pure decision over the requested
 * path, whether a user is signed in, and the role names the `user_roles`
 * lookup returned. Cookie and session plumbing are inputs, not modelled.
 */
module Middleware {
  import opened Base
  import opened RoleModel

  /** What the gate does with a request; `RedirectToLogin` sends the browser to `LoginPath`. */
  datatype Outcome = Allow | RedirectToLogin | RedirectToNoRole | RedirectToDashboard

  const LoginPath := "/login"
  const NoRolePath := "/no-role"
  const DashboardPath := "/dashboard"

  /** Paths that bypass every check. */
  const PublicRoutes: seq<string> := [LoginPath, "/register"]

  /** Paths governed by a role list; any listed role grants access. */
  const RoleRoutes: map<string, seq<RoleName>> := map[
    "/" := [Admin, Registrador, Caja],
    "/admin" := [Admin],
    "/dashboard" := [Admin, Registrador],
    "/register-invoice" := [Admin, Registrador],
    "/pos" := [Admin, Caja, Registrador]
  ]

  /**
   * The role lookup result: `data` is null when the query fails, and each
   * joined name is undefined when the `roles` join yields null.
   */
  type RoleLookup = Option<seq<Option<RoleName>>>

  /** `userRoles?.map(ur => ur.roles?.name) || []`. */
  function UserRoleNames(lookup: RoleLookup): (names: seq<Option<RoleName>>)
    ensures lookup.None? ==> names == []
    ensures lookup.Some? ==> |names| == |lookup.value|
  {
    if lookup.Some? then lookup.value else []
  }

  /** `required.some(role => names.includes(role))`; an undefined name matches nothing. */
  function HasRequiredRole(required: seq<RoleName>, names: seq<Option<RoleName>>): (ok: bool)
    ensures ok <==> exists j :: 0 <= j < |required| && Some(required[j]) in names
  {
    if required == [] then false
    else Some(required[0]) in names || HasRequiredRole(required[1..], names)
  }

  /** The gate, in the order middleware.ts evaluates it. */
  function Gate(path: string, signedIn: bool, lookup: RoleLookup): (o: Outcome)
    ensures o == RedirectToLogin <==> path !in PublicRoutes && !signedIn
    ensures o == RedirectToNoRole ==> path in RoleRoutes && UserRoleNames(lookup) == []
    ensures o == RedirectToDashboard ==> path in RoleRoutes && UserRoleNames(lookup) != []
  {
    if path in PublicRoutes then Allow
    else if !signedIn then RedirectToLogin
    else if path in RoleRoutes && |RoleRoutes[path]| > 0 then
      var names := UserRoleNames(lookup);
      if HasRequiredRole(RoleRoutes[path], names) then Allow
      else if |names| == 0 then RedirectToNoRole
      else RedirectToDashboard
    else Allow
  }

  /**
   * The alternatives of the matcher's negative lookahead. They are regular
   * expressions: the `.` of `favicon.ico` matches any character.
   */
  const MatcherExclusions: seq<string> := ["_next/static", "_next/image", "favicon.ico", "public"]

  /** `pattern` matches a prefix of `s`, reading `.` in the pattern as any character. */
  predicate PatternPrefix(pattern: string, s: string)
  {
    |pattern| <= |s| && forall k :: 0 <= k < |pattern| ==> pattern[k] == '.' || pattern[k] == s[k]
  }

  /**
   * `config.matcher`, `/((?!_next/static|_next/image|favicon.ico|public).*)`:
   * the middleware runs on a path unless what follows its leading `/`
   * starts with one of the excluded alternatives.
   */
  predicate Matched(path: string)
  {
    && |path| > 0 && path[0] == '/'
    && forall j :: 0 <= j < |MatcherExclusions| ==> !PatternPrefix(MatcherExclusions[j], path[1..])
  }

  /**
   * A request as the app serves it: a path the matcher skips is served
   * without running the gate at all.
   */
  function Serve(path: string, signedIn: bool, lookup: RoleLookup): (o: Outcome)
    ensures o == Allow <==> !Matched(path) || MayReach(path, signedIn, UserRoleNames(lookup))
    ensures o == RedirectToLogin <==> Matched(path) && path !in PublicRoutes && !signedIn
    ensures !Matched(path) ==> o == Allow
  {
    GateAllowsExactlyMayReach(path, signedIn, lookup);
    if Matched(path) then Gate(path, signedIn, lookup) else Allow
  }

  /**
   * Who may reach a path, stated declaratively: public paths are open,
   * everything else needs a signed-in user, and a governed path also
   * needs one of its listed role names among the looked-up names.
   */
  predicate MayReach(path: string, signedIn: bool, names: seq<Option<RoleName>>)
  {
    || path in PublicRoutes
    || (signedIn && (path !in RoleRoutes || exists r :: r in RoleRoutes[path] && Some(r) in names))
  }

  /** The gate lets a request through exactly when the declarative rule allows it. */
  lemma GateAllowsExactlyMayReach(path: string, signedIn: bool, lookup: RoleLookup)
    ensures Gate(path, signedIn, lookup) == Allow <==> MayReach(path, signedIn, UserRoleNames(lookup))
  {
  }

  /** Every governed path lists at least one role and no governed path is public. */
  lemma RouteTableWellFormed()
    ensures forall p :: p in RoleRoutes ==> |RoleRoutes[p]| > 0
    ensures forall p :: p in RoleRoutes ==> p !in PublicRoutes
  {
  }

  /** `/login` and `/register` pass without an identity check or a role lookup. */
  lemma PublicPathsAlwaysAllowed(path: string, signedIn: bool, lookup: RoleLookup)
    requires path == LoginPath || path == "/register"
    ensures Gate(path, signedIn, lookup) == Allow
  {
  }

  /** Without a user, every non-public path the middleware runs on sends the request to `/login`. */
  lemma SignedOutGoesToLogin(path: string, lookup: RoleLookup)
    requires path !in PublicRoutes && Matched(path)
    ensures Gate(path, false, lookup) == RedirectToLogin
    ensures Serve(path, false, lookup) == RedirectToLogin
  {
  }

  /** A path whose first characters rule out every excluded alternative is matched. */
  lemma MatchedByLeadingChars(path: string)
    requires |path| > 0 && path[0] == '/'
    requires |path| == 1 || (path[1] != '_' && path[1] != 'f' && (path[1] == 'p' ==> |path| > 2 && path[2] != 'u'))
    ensures Matched(path)
  {
    var rest := path[1..];
    forall j | 0 <= j < |MatcherExclusions| ensures !PatternPrefix(MatcherExclusions[j], rest) {
      var pattern := MatcherExclusions[j];
      assert pattern[0] in "_fp" && (pattern[0] == 'p' ==> pattern[1] == 'u');
      if |pattern| <= |rest| {
        if pattern[0] == 'p' && rest[0] == 'p' {
          assert pattern[1] != rest[1];
        } else {
          assert pattern[0] != rest[0];
        }
      }
    }
  }

  /** The matcher runs the gate on every governed path and on the public pages. */
  lemma GovernedPathsMatched()
    ensures forall p :: p in RoleRoutes ==> Matched(p)
    ensures forall j :: 0 <= j < |PublicRoutes| ==> Matched(PublicRoutes[j])
  {
    MatchedByLeadingChars("/");
    MatchedByLeadingChars("/admin");
    MatchedByLeadingChars("/dashboard");
    MatchedByLeadingChars("/register-invoice");
    MatchedByLeadingChars("/pos");
    MatchedByLeadingChars("/login");
    MatchedByLeadingChars("/register");
  }

  /**
   * Paths the matcher skips are served to anyone: the static assets, and
   * also any path that merely starts with `public` (no slash follows it
   * in the pattern) or matches `favicon.ico` with any character for the dot.
   */
  lemma UnmatchedPathsServedSignedOut(lookup: RoleLookup)
    ensures Serve("/_next/static/chunk.js", false, lookup) == Allow
    ensures Serve("/publicidad", false, lookup) == Allow
    ensures Serve("/favicon-ico", false, lookup) == Allow
    ensures Serve("/admin", false, lookup) == RedirectToLogin
  {
    assert PatternPrefix(MatcherExclusions[0], "_next/static/chunk.js");
    assert PatternPrefix(MatcherExclusions[3], "publicidad");
    assert PatternPrefix(MatcherExclusions[2], "favicon-ico");
  }

  /**
   * A signed-in request for a path with no role-table key is allowed
   * whatever the lookup says; the key match is exact, so `/admin/x` is
   * not governed by `/admin`.
   */
  lemma UngovernedIgnoresRoles(path: string, lookup1: RoleLookup, lookup2: RoleLookup)
    requires path !in RoleRoutes
    ensures Gate(path, true, lookup1) == Allow
    ensures Gate(path, true, lookup1) == Gate(path, true, lookup2)
  {
  }

  /**
   * On a governed path, a signed-in user is allowed iff one of the path's
   * roles is among the names; otherwise no names at all means `/no-role`
   * and some (insufficient) names mean `/dashboard`.
   */
  lemma GovernedDecision(path: string, lookup: RoleLookup)
    requires path in RoleRoutes
    ensures var names := UserRoleNames(lookup);
      var granted := exists r :: r in RoleRoutes[path] && Some(r) in names;
      && (Gate(path, true, lookup) == Allow <==> granted)
      && (!granted && names == [] ==> Gate(path, true, lookup) == RedirectToNoRole)
      && (!granted && names != [] ==> Gate(path, true, lookup) == RedirectToDashboard)
  {
  }

  /** A failed role lookup (null `data`) counts as holding no role at all. */
  lemma FailedLookupMeansNoRole(path: string)
    requires path in RoleRoutes
    ensures Gate(path, true, None) == RedirectToNoRole
  {
  }

  /** `/no-role` is ungoverned, so every signed-in user reaches it. */
  lemma NoRolePageReachable(lookup: RoleLookup)
    ensures Gate(NoRolePath, true, lookup) == Allow
  {
  }

  /**
   * The insufficient-role fallback is itself governed: a user holding only
   * `Caja` who asks for `/dashboard` is redirected to `/dashboard` again.
   */
  lemma CajaOnlyDashboardRedirectsToItself()
    ensures Gate(DashboardPath, true, Some([Some(Caja)])) == RedirectToDashboard
    ensures DashboardPath !in PublicRoutes && DashboardPath in RoleRoutes
  {
  }

  /**
   * A join that yields null still counts toward "has roles": such a user
   * is sent to `/dashboard`, never to `/no-role`, and is never granted.
   */
  lemma NullJoinCountsAsHoldingRoles(path: string, n: nat)
    requires path in RoleRoutes
    requires n > 0
    ensures Gate(path, true, Some(seq<Option<RoleName>>(n, _ => None))) == RedirectToDashboard
  {
  }

  /** The worked examples: admin panel with no roles, with `Caja`, with `admin`; signed-out invoice page; `/login`. */
  lemma AdminPanelExamples()
    ensures Gate("/admin", true, Some([])) == RedirectToNoRole
    ensures Gate("/admin", true, Some([Some(Caja)])) == RedirectToDashboard
    ensures Gate("/admin", true, Some([Some(Admin)])) == Allow
    ensures Gate("/register-invoice", false, None) == RedirectToLogin
    ensures Gate("/login", false, None) == Allow
  {
  }
}

=== FILE: role_guard.dfy ===
/** The render decisions of components/RoleGuard.tsx over the hook's state. */
module RoleGuard {
  import opened Base
  import opened RoleModel
  import opened UserRolesHook

  /** A React element passed in by the caller; an element is always truthy. */
  datatype Element = Element(content: string)

  /** What `RoleGuard` renders. */
  datatype Rendered = LoadingPlaceholder | Children | Fallback(element: Element) | Nothing

  /** `RoleGuard({ children, requiredRoles, fallback })`. */
  function Guard(st: HookState, requiredRoles: seq<RoleName>, fallback: Option<Element>): (out: Rendered)
    ensures st.isLoading <==> out == LoadingPlaceholder
    ensures !st.isLoading ==> (out == Children <==> HookHasAnyRole(st, requiredRoles))
    ensures out.Fallback? <==> !st.isLoading && !HookHasAnyRole(st, requiredRoles) && fallback.Some?
    ensures out.Fallback? ==> out.element == fallback.value
  {
    if st.isLoading then LoadingPlaceholder
    else if HookHasAnyRole(st, requiredRoles) then Children
    else if fallback.Some? then Fallback(fallback.value)
    else Nothing
  }

  /** With no required roles the children never render. */
  lemma EmptyRequirementNeverShowsChildren(st: HookState, fallback: Option<Element>)
    ensures Guard(st, [], fallback) != Children
  {
  }

  /** While the roles load, the placeholder shows whatever the roles are. */
  lemma LoadingIgnoresRoles(roles1: seq<Role>, roles2: seq<Role>, required: seq<RoleName>, fallback: Option<Element>)
    ensures Guard(HookState(roles1, true), required, fallback) == Guard(HookState(roles2, true), required, fallback)
    ensures Guard(HookState(roles1, true), required, fallback) == Guard(Initial, required, fallback)
  {
  }

  /** What `UserRolesDisplay` renders. */
  datatype RolesDisplay = LoadingBadge | NoRoleBadge | RoleBadges(names: seq<RoleName>)

  /** `UserRolesDisplay()`: loading badge, "Sin rol", or one badge per role in order. */
  function DisplayRoles(st: HookState): (out: RolesDisplay)
    ensures st.isLoading <==> out == LoadingBadge
    ensures out == NoRoleBadge <==> !st.isLoading && st.roles == []
    ensures out.RoleBadges? ==>
      |out.names| == |st.roles| > 0 && forall i :: 0 <= i < |st.roles| ==> out.names[i] == st.roles[i].name
  {
    if st.isLoading then LoadingBadge
    else if |st.roles| == 0 then NoRoleBadge
    else RoleBadges(seq(|st.roles|, i requires 0 <= i < |st.roles| => st.roles[i].name))
  }
}

=== FILE: role_store.dfy ===
/**
 * The client-side role helpers of lib/supabase/roles.ts over an in-memory
 * image of the two tables they touch: `roles` (unique names) and
 * `user_roles` (unique user/role pairs, held as a set).
 */
module RoleStore {
  import opened Base
  import opened RoleModel

  type UserId = string
  type RoleId = string

  /** The non-name columns of a `roles` row. */
  datatype RoleRow = RoleRow(id: RoleId, description: Option<string>)

  /** `roles` keyed by its unique name, and the `user_roles` pairs. */
  datatype Store = Store(roles: map<RoleName, RoleRow>, assignments: set<(UserId, RoleId)>)

  /** `roles.id` is the table's key: no two role names share an id. */
  predicate ValidStore(s: Store)
  {
    forall n1, n2 :: n1 in s.roles && n2 in s.roles && s.roles[n1].id == s.roles[n2].id ==> n1 == n2
  }

  /**
   * How the backend behaves during one call: every query answers, a
   * select answers with an error object, a write answers with an error
   * object, or the client throws (with an `Error` message, or a non-Error
   * value).
   */
  datatype Backend = Healthy | QueryFails | WriteFails(message: string) | Throws(thrown: Option<string>)

  /** The `{ success, error? }` reply of the two write helpers. */
  datatype Reply = Success | Failure(error: string)

  /** A write helper's reply together with the store it leaves behind. */
  datatype Step = Step(store: Store, reply: Reply)

  const RoleNotFound := "Rol no encontrado"
  const AlreadyAssigned := "El usuario ya tiene este rol"
  const UnknownError := "Error desconocido"

  /** `error instanceof Error ? error.message : "Error desconocido"`. */
  function ThrownMessage(thrown: Option<string>): string
  {
    if thrown.Some? then thrown.value else UnknownError
  }

  /** The roles joined to a user's `user_roles` rows; pairs whose role row is missing join to null and are dropped. */
  function JoinedRoles(s: Store, userId: UserId): set<Role>
  {
    set name | name in s.roles && (userId, s.roles[name].id) in s.assignments ::
      Role(s.roles[name].id, name, s.roles[name].description)
  }

  /** `getUserRoles`: the user's joined roles, empty when the query errors or throws. */
  function GetUserRoles(s: Store, userId: UserId, b: Backend): (roles: set<Role>)
    ensures b.QueryFails? || b.Throws? ==> roles == {}
    ensures !b.QueryFails? && !b.Throws? ==>
      forall r :: r in roles <==>
        r.name in s.roles && s.roles[r.name] == RoleRow(r.id, r.description) && (userId, r.id) in s.assignments
  {
    if b.QueryFails? || b.Throws? then {} else JoinedRoles(s, userId)
  }

  /** In a valid store each `user_roles` pair joins to one role: no two returned roles share an id. */
  lemma OneRolePerPair(s: Store, userId: UserId, b: Backend)
    requires ValidStore(s)
    ensures forall r1, r2 :: r1 in GetUserRoles(s, userId, b) && r2 in GetUserRoles(s, userId, b) && r1.id == r2.id ==> r1 == r2
  {
  }

  /** The write helpers never touch `roles`, so they keep a store valid. */
  lemma WritesKeepStoreValid(s: Store, userId: UserId, name: RoleName, b: Backend)
    requires ValidStore(s)
    ensures ValidStore(AssignRoleToUser(s, userId, name, b).store)
    ensures ValidStore(RemoveRoleFromUser(s, userId, name, b).store)
  {
  }

  /** `userHasRole`: some role returned for the user carries the name. */
  function UserHasRole(s: Store, userId: UserId, name: RoleName, b: Backend): (held: bool)
    ensures held <==> exists r :: r in GetUserRoles(s, userId, b) && r.name == name
  {
    if b.QueryFails? || b.Throws? then false
    else if name in s.roles && (userId, s.roles[name].id) in s.assignments then
      assert Role(s.roles[name].id, name, s.roles[name].description) in JoinedRoles(s, userId);
      true
    else false
  }

  /** `assignRoleToUser`: look the role up, refuse a held pair, then insert it. */
  function AssignRoleToUser(s: Store, userId: UserId, name: RoleName, b: Backend): (step: Step)
    ensures step.reply.Success? <==>
      (b.Healthy? && name in s.roles && (userId, s.roles[name].id) !in s.assignments)
    ensures step.reply.Success? ==>
      step.store == s.(assignments := s.assignments + {(userId, s.roles[name].id)})
    ensures step.reply.Failure? ==> step.store == s
    ensures b.Throws? ==> step.reply == Failure(ThrownMessage(b.thrown))
    ensures b.WriteFails? && name in s.roles && (userId, s.roles[name].id) !in s.assignments ==>
      step.reply == Failure(b.message)
  {
    if b.Throws? then Step(s, Failure(ThrownMessage(b.thrown)))
    else if b.QueryFails? || name !in s.roles then Step(s, Failure(RoleNotFound))
    else
      var pair := (userId, s.roles[name].id);
      if pair in s.assignments then Step(s, Failure(AlreadyAssigned))
      else if b.WriteFails? then Step(s, Failure(b.message))
      else Step(s.(assignments := s.assignments + {pair}), Success)
  }

  /** `removeRoleFromUser`: look the role up, then delete the pair whether or not it was there. */
  function RemoveRoleFromUser(s: Store, userId: UserId, name: RoleName, b: Backend): (step: Step)
    ensures step.reply.Success? <==> (b.Healthy? && name in s.roles)
    ensures step.reply.Success? ==>
      step.store == s.(assignments := s.assignments - {(userId, s.roles[name].id)})
    ensures step.reply.Failure? ==> step.store == s
    ensures b.Throws? ==> step.reply == Failure(ThrownMessage(b.thrown))
    ensures b.WriteFails? && name in s.roles ==> step.reply == Failure(b.message)
  {
    if b.Throws? then Step(s, Failure(ThrownMessage(b.thrown)))
    else if b.QueryFails? || name !in s.roles then Step(s, Failure(RoleNotFound))
    else if b.WriteFails? then Step(s, Failure(b.message))
    else Step(s.(assignments := s.assignments - {(userId, s.roles[name].id)}), Success)
  }

  /** An unknown role name fails with "Rol no encontrado" and leaves the pairs alone. */
  lemma AssignUnknownRole(s: Store, userId: UserId, name: RoleName)
    requires name !in s.roles
    ensures AssignRoleToUser(s, userId, name, Healthy) == Step(s, Failure(RoleNotFound))
    ensures RemoveRoleFromUser(s, userId, name, Healthy) == Step(s, Failure(RoleNotFound))
  {
  }

  /** A failing role lookup is reported as "Rol no encontrado" too. */
  lemma FailedLookupReadsAsNotFound(s: Store, userId: UserId, name: RoleName)
    ensures AssignRoleToUser(s, userId, name, QueryFails).reply == Failure(RoleNotFound)
    ensures RemoveRoleFromUser(s, userId, name, QueryFails).reply == Failure(RoleNotFound)
  {
  }

  /** A held pair is refused with "El usuario ya tiene este rol" and nothing changes. */
  lemma AssignHeldRole(s: Store, userId: UserId, name: RoleName)
    requires name in s.roles && (userId, s.roles[name].id) in s.assignments
    ensures AssignRoleToUser(s, userId, name, Healthy) == Step(s, Failure(AlreadyAssigned))
  {
  }

  /** After a successful assignment the user holds the role. */
  lemma AssignGrantsRole(s: Store, userId: UserId, name: RoleName)
    requires AssignRoleToUser(s, userId, name, Healthy).reply.Success?
    ensures UserHasRole(AssignRoleToUser(s, userId, name, Healthy).store, userId, name, Healthy)
  {
  }

  /**
   * Assigning twice in a row: success, then "already assigned". The user's
   * roles then hold exactly one role of that name; that part holds by
   * construction, because the role catalogue is keyed by name.
   */
  lemma AssignTwice(s: Store, userId: UserId, name: RoleName)
    requires name in s.roles && (userId, s.roles[name].id) !in s.assignments
    ensures var first := AssignRoleToUser(s, userId, name, Healthy);
      var second := AssignRoleToUser(first.store, userId, name, Healthy);
      && first.reply == Success
      && second == Step(first.store, Failure(AlreadyAssigned))
      && (set r | r in GetUserRoles(second.store, userId, Healthy) && r.name == name) ==
         {Role(s.roles[name].id, name, s.roles[name].description)}
  {
  }

  /** Removal only ever deletes the one pair: every other user's and role's pairs stay. */
  lemma RemoveTouchesOnlyThePair(s: Store, userId: UserId, name: RoleName, b: Backend, other: (UserId, RoleId))
    requires other in s.assignments
    requires name in s.roles ==> other != (userId, s.roles[name].id)
    ensures other in RemoveRoleFromUser(s, userId, name, b).store.assignments
  {
  }

  /** Removing a role the user never had succeeds and changes nothing. */
  lemma RemoveIsIdempotent(s: Store, userId: UserId, name: RoleName)
    requires name in s.roles && (userId, s.roles[name].id) !in s.assignments
    ensures RemoveRoleFromUser(s, userId, name, Healthy) == Step(s, Success)
  {
  }

  /** After a successful removal the user no longer holds the role. */
  lemma RemoveRevokesRole(s: Store, userId: UserId, name: RoleName)
    requires name in s.roles
    ensures !UserHasRole(RemoveRoleFromUser(s, userId, name, Healthy).store, userId, name, Healthy)
  {
  }
}

=== FILE: roles_common.dfy ===
/**
 * Role records and the role predicates shared by the server helpers
 * (lib/supabase/server-auth.ts), the client store helpers
 * (lib/supabase/roles.ts) and the `useUserRoles` hook.
 */
module RoleModel {
  import opened Base

  type RoleName = string

  const Admin: RoleName := "admin"
  const Caja: RoleName := "Caja"
  const Registrador: RoleName := "Registrador"

  /** A row of the `roles` table. */
  datatype Role = Role(id: string, name: RoleName, description: Option<string>)

  /**
   * What a `user_roles` select joined with `roles` gives back: either the
   * rows (each join may be null when the role row is missing), an `error`
   * object, or a thrown exception. `data` itself may be null.
   */
  datatype RoleQuery =
    | Answered(data: Option<seq<Option<Role>>>)
    | QueryError(reason: string)
    | Threw(message: string)

  /** `data?.map(ur => ur.role).filter(Boolean) || []` for the joined rows. */
  function PresentRoles(rows: seq<Option<Role>>): (roles: seq<Role>)
    ensures |roles| <= |rows|
    ensures forall r :: r in roles <==> Some(r) in rows
  {
    if rows == [] then []
    else
      var last := rows[|rows| - 1];
      assert rows == rows[..|rows| - 1] + [last];
      PresentRoles(rows[..|rows| - 1]) + (if last.Some? then [last.value] else [])
  }

  /** The rows of an answered query, `[]` when `data` is null. */
  function RowsOf(data: Option<seq<Option<Role>>>): seq<Option<Role>>
  {
    if data.Some? then data.value else []
  }

  /** Filtering keeps the order of the rows: it distributes over concatenation. */
  lemma {:induction false} PresentRolesAppend(a: seq<Option<Role>>, b: seq<Option<Role>>)
    ensures PresentRoles(a + b) == PresentRoles(a) + PresentRoles(b)
    decreases |b|
  {
    if b == [] {
      assert a + b == a;
    } else {
      var b' := b[..|b| - 1];
      var last := b[|b| - 1];
      var tail := if last.Some? then [last.value] else [];
      var ab := a + b;
      InitOfAppend(a, b);
      assert PresentRoles(ab) == PresentRoles(a + b') + tail;
      assert PresentRoles(b) == PresentRoles(b') + tail;
      PresentRolesAppend(a, b');
    }
  }

  /** When every join succeeded, filtering drops nothing. */
  lemma {:induction false} PresentRolesAllJoined(rows: seq<Option<Role>>)
    requires forall i :: 0 <= i < |rows| ==> rows[i].Some?
    ensures |PresentRoles(rows)| == |rows|
    ensures forall i :: 0 <= i < |rows| ==> PresentRoles(rows)[i] == rows[i].value
  {
    if rows != [] {
      var init := rows[..|rows| - 1];
      PresentRolesAllJoined(init);
      assert PresentRoles(rows) == PresentRoles(init) + [rows[|rows| - 1].value];
      forall i | 0 <= i < |rows|
        ensures PresentRoles(rows)[i] == rows[i].value
      {
        if i < |init| {
          assert rows[i] == init[i];
        }
      }
    }
  }

  /** `roles.some(r => r.name === name)`. */
  function HasRole(roles: seq<Role>, name: RoleName): (held: bool)
    ensures held <==> exists i :: 0 <= i < |roles| && roles[i].name == name
  {
    if roles == [] then false
    else roles[0].name == name || HasRole(roles[1..], name)
  }

  /** `names.some(n => HasRole(roles, n))`: false for an empty `names`. */
  function HasAnyRole(roles: seq<Role>, names: seq<RoleName>): (held: bool)
    ensures held <==> exists j :: 0 <= j < |names| && HasRole(roles, names[j])
    ensures names == [] ==> !held
  {
    if names == [] then false
    else
      HasRole(roles, names[0]) || HasAnyRole(roles, names[1..])
  }
}

=== FILE: server_auth.dfy ===
/**
 * The server-side guards of lib/supabase/server-auth.ts. The signed-in user
 * and the answer of the role query for that user are inputs; the cookie
 * bound client is not modelled. Unlike lib/supabase/roles.ts these helpers
 * have no try/catch, so a thrown exception reaches the caller.
 */
module ServerAuth {
  import opened Base
  import opened RoleModel

  /** The identity the session provider returns. */
  datatype User = User(id: string)

  const NotAuthenticated := "Usuario no autenticado"
  const NoPermission := "No tienes permiso para acceder a este recurso"

  /** `getUserRoles`: `[]` on a query error, the present joined roles otherwise; a throw propagates. */
  function GetUserRoles(q: RoleQuery): (r: Result<seq<Role>>)
    ensures q.QueryError? ==> r == Ok([])
    ensures q.Threw? ==> r == Err(q.message)
    ensures q.Answered? ==> r.Ok? && forall x :: x in r.value <==> Some(x) in RowsOf(q.data)
  {
    match q
    case QueryError(_) => Ok([])
    case Threw(m) => Err(m)
    case Answered(data) => Ok(PresentRoles(RowsOf(data)))
  }

  /** `userHasRole`: some returned role carries the name. */
  function UserHasRole(q: RoleQuery, name: RoleName): (r: Result<bool>)
    ensures r.Ok? <==> !q.Threw?
    ensures r.Ok? ==> (r.value <==> exists x :: x in GetUserRoles(q).value && x.name == name)
  {
    var roles :- GetUserRoles(q);
    Ok(HasRole(roles, name))
  }

  /** `userHasAnyRole`: some listed name is held; never for an empty list. */
  function UserHasAnyRole(q: RoleQuery, names: seq<RoleName>): (r: Result<bool>)
    ensures r.Ok? <==> !q.Threw?
    ensures r.Ok? ==> (r.value <==> exists j :: 0 <= j < |names| && UserHasRole(q, names[j]) == Ok(true))
    ensures names == [] ==> r != Ok(true)
  {
    var roles :- GetUserRoles(q);
    Ok(HasAnyRole(roles, names))
  }

  /** `requireAdmin`: unauthenticated first, then the admin check. */
  function RequireAdmin(user: Option<User>, q: RoleQuery): (r: Result<User>)
    ensures user.None? ==> r == Err(NotAuthenticated)
    ensures user.Some? && UserHasRole(q, Admin) == Ok(true) ==> r == Ok(user.value)
    ensures user.Some? && UserHasRole(q, Admin) == Ok(false) ==> r == Err(NoPermission)
  {
    if user.None? then Err(NotAuthenticated)
    else
      var isAdmin :- UserHasRole(q, Admin);
      if !isAdmin then Err(NoPermission) else Ok(user.value)
  }

  /** `requireRole(...names)`: unauthenticated first, then any listed role. */
  function RequireRole(user: Option<User>, q: RoleQuery, names: seq<RoleName>): (r: Result<User>)
    ensures user.None? ==> r == Err(NotAuthenticated)
    ensures r.Ok? <==> user.Some? && UserHasAnyRole(q, names) == Ok(true)
    ensures r.Ok? ==> r.value == user.value
    ensures user.Some? && UserHasAnyRole(q, names) == Ok(false) ==> r == Err(NoPermission)
  {
    if user.None? then Err(NotAuthenticated)
    else
      var held :- UserHasAnyRole(q, names);
      if !held then Err(NoPermission) else Ok(user.value)
  }

  /** `requireAdmin()` behaves exactly like `requireRole('admin')`. */
  lemma RequireAdminIsRequireRoleAdmin(user: Option<User>, q: RoleQuery)
    ensures RequireAdmin(user, q) == RequireRole(user, q, [Admin])
  {
  }

  /** With an empty role list nobody passes `requireRole`. */
  lemma RequireNoRolesRejectsEveryone(user: Option<User>, q: RoleQuery)
    ensures RequireRole(user, q, []).Err?
  {
  }

  /** A failing role query leaves the user with no role: every signed-in caller is refused permission. */
  lemma QueryErrorDeniesPermission(u: User, reason: string, names: seq<RoleName>)
    ensures RequireRole(Some(u), QueryError(reason), names) == Err(NoPermission)
  {
  }
}

=== FILE: text.dfy ===
/** `String.prototype.trim` as the form uses it. */
module Text {

  /** The characters ECMAScript's `trim` strips: its WhiteSpace and LineTerminator sets. */
  predicate IsJsSpace(c: char)
  {
    || c == '\t' || c == '\n' || c == '\U{000B}' || c == '\U{000C}' || c == '\r' || c == ' '
    || c == '\U{00A0}' || c == '\U{1680}' || ('\U{2000}' <= c <= '\U{200A}')
    || c == '\U{2028}' || c == '\U{2029}' || c == '\U{202F}' || c == '\U{205F}'
    || c == '\U{3000}' || c == '\U{FEFF}'
  }

  /** The first position at or after `lo` that is not white space, `|s|` when there is none. */
  function SkipSpace(s: string, lo: nat): (n: nat)
    requires lo <= |s|
    ensures lo <= n <= |s|
    ensures forall k :: lo <= k < n ==> IsJsSpace(s[k])
    ensures n == |s| || !IsJsSpace(s[n])
    decreases |s| - lo
  {
    if lo == |s| || !IsJsSpace(s[lo]) then lo else SkipSpace(s, lo + 1)
  }

  /** The end of `s[lo..hi]` once its trailing white space is dropped. */
  function SkipSpaceBack(s: string, lo: nat, hi: nat): (m: nat)
    requires lo <= hi <= |s|
    ensures lo <= m <= hi
    ensures forall k :: m <= k < hi ==> IsJsSpace(s[k])
    ensures m == lo || !IsJsSpace(s[m - 1])
    decreases hi
  {
    if hi == lo || !IsJsSpace(s[hi - 1]) then hi else SkipSpaceBack(s, lo, hi - 1)
  }

  /** `s.trim()`: the middle slice of `s` between the white space at both ends. */
  function Trim(s: string): (r: string)
    ensures var i := SkipSpace(s, 0);
      && i + |r| <= |s| && r == s[i..i + |r|]
      && (forall k :: i + |r| <= k < |s| ==> IsJsSpace(s[k]))
    ensures forall k :: 0 <= k < SkipSpace(s, 0) ==> IsJsSpace(s[k])
    ensures r == [] || (!IsJsSpace(r[0]) && !IsJsSpace(r[|r| - 1]))
  {
    var i := SkipSpace(s, 0);
    s[i..SkipSpaceBack(s, i, |s|)]
  }

  /**
   * `trim` is the only cut with those properties: any slice `s[i..j]` with
   * only white space outside it and none at its own ends is `Trim(s)`.
   */
  lemma TrimUnique(s: string, i: nat, j: nat)
    requires i <= j <= |s|
    requires forall k :: 0 <= k < i ==> IsJsSpace(s[k])
    requires forall k :: j <= k < |s| ==> IsJsSpace(s[k])
    requires i < j ==> !IsJsSpace(s[i]) && !IsJsSpace(s[j - 1])
    ensures Trim(s) == s[i..j]
  {
  }

  /** A string trims to nothing exactly when it is all white space. */
  lemma TrimBlankIffAllSpace(s: string)
    ensures Trim(s) == "" <==> forall k :: 0 <= k < |s| ==> IsJsSpace(s[k])
  {
  }
}

=== FILE: user_roles_hook.dfy ===
/**
 * The client hook hooks/useUserRoles.ts: the state it ends in after
 * `loadUserRoles` and the role predicates it hands to components.
 */
module UserRolesHook {
  import opened Base
  import opened RoleModel

  /** The hook's React state. */
  datatype HookState = HookState(roles: seq<Role>, isLoading: bool)

  /** Before `loadUserRoles` finishes: no roles, still loading. */
  const Initial := HookState([], true)

  /** What `supabase.auth.getUser()` did. */
  datatype Auth = NoUser | SignedIn(userId: string) | AuthThrew

  /**
   * `loadUserRoles`: the state after the effect has run. The role query is
   * only made for a signed-in user; its answer is `q`.
   */
  function LoadUserRoles(auth: Auth, q: RoleQuery): (st: HookState)
    ensures !st.isLoading
    ensures !auth.SignedIn? ==> st.roles == []
    ensures auth.SignedIn? && !q.Answered? ==> st.roles == []
    ensures auth.SignedIn? && q.Answered? ==>
      forall r :: r in st.roles <==> Some(r) in RowsOf(q.data)
  {
    match auth
    case SignedIn(_) =>
      (match q
       case Answered(data) => HookState(PresentRoles(RowsOf(data)), false)
       case _ => HookState([], false))
    case _ => HookState([], false)
  }

  /** The returned `hasRole(name)`. */
  function HookHasRole(st: HookState, name: RoleName): (held: bool)
    ensures held <==> exists r :: r in st.roles && r.name == name
  {
    HasRole(st.roles, name)
  }

  /** The returned `hasAnyRole(names)`: false for an empty list. */
  function HookHasAnyRole(st: HookState, names: seq<RoleName>): (held: bool)
    ensures held <==> exists j :: 0 <= j < |names| && HookHasRole(st, names[j])
    ensures names == [] ==> !held
  {
    HasAnyRole(st.roles, names)
  }

  /** The returned `isAdmin` flag. */
  function IsAdmin(st: HookState): (admin: bool)
    ensures admin <==> exists r :: r in st.roles && r.name == Admin
  {
    HasRole(st.roles, Admin)
  }

  /** The filtering in `loadUserRoles` keeps the rows' order when every join succeeded. */
  lemma LoadKeepsJoinedOrder(id: string, rows: seq<Option<Role>>)
    requires forall i :: 0 <= i < |rows| ==> rows[i].Some?
    ensures var st := LoadUserRoles(SignedIn(id), Answered(Some(rows)));
      |st.roles| == |rows| && forall i :: 0 <= i < |rows| ==> st.roles[i] == rows[i].value
  {
    PresentRolesAllJoined(rows);
  }
}
